=== FILE: README.md ===
# web-wsi annotation editing, modelled in Dafny

This project models the annotation-editing core of the web-wsi whole-slide
image viewer. Users draw eight kinds of shapes on a slide: marker, line,
circle, ellipse, rectangle, square, polygon and freehand. They select the
shapes, move them, reshape them through control points, and delete them.

The viewer has two editors. The SVG overlay editor (`AnnotationEditor`)
and the canvas editor (`CanvasAnnotationEditor`) run the same per-kind
drawing state machine. Their press, move, release and finish handlers are
the same code apart from how previews are painted, so one module,
`Drawing`, models both. On top of that machine, the SVG editor keeps eight
per-kind flags. The canvas editor adds a geometric shape picker, move mode
with a toolbar, control-point editing, double-click and Escape. A Pinia
store (`useAnnotationStore`) keeps an application-wide list with an
index-based selection.

Modules:

- `Optional`: nullable values.
- `Ids`: the decimal ids `String(nextId++)`.
- `Geometry`: points, squared distances, and the square-root oracle.
- `Shapes`: kinds, parameters, annotations and translation.
- `ControlPoints`: handle placement and the per-kind reshaping rules.
- `Scan`: the top-most-first scan.
- `HitTest`: the canvas editor's point-in-shape tests.
- `AnnotationList`: the id-keyed list and selection both editors keep.
- `Drawing`: the shared drawing machine.
- `SvgEditor` and `CanvasEditor`: the two editors.
- `AnnotationStore`: the store.

The model makes these substitutions:

- Coordinates are exact reals.
- The viewer's image-to-screen mapping (`imageToViewerElementCoordinates`)
  and `Math.sqrt` are parameters, bundled in `Geometry.Env`.
- Properties that need the square root assume only that the root is
  non-negative and squares back to its argument (`SaneSqrt`).
- Distance thresholds are compared on squares. `SqrtCompare` shows this
  agrees with comparing roots.
- Mouse events arrive already converted. The canvas editor receives screen
  and image coordinates (`CanvasEditor.Pointer`). The SVG editor receives
  the image point and the `data-id` of the element under the pointer.
- A chosen kind and its parameter record are fused into one sum type,
  `Shapes.Params`, so an annotation's kind always matches its parameters.

## Model

| member | source | states |
|---|---|---|
| Ids.IdOf | src/utils/AnnotationEditor.ts:771 | an id is a non-empty digit string, with no leading zero from 10 on |
| Ids.DecimalRoundTrip | src/utils/AnnotationEditor.ts:771 | reading an id back as a decimal number gives the counter value it was made from |
| Ids.IdOfInjective | src/utils/AnnotationEditor.ts:771 | two counter values give the same id exactly when they are equal |
| Geometry.SqrtCompare | src/utils/CanvasAnnotationEditor.ts:1110-1121 | under a sane square root, `sqrt(q) < t` holds exactly when `q < t*t`, and likewise for `<=`; this justifies the squared-distance hit tests |
| Geometry.SqDistShift | src/utils/CanvasAnnotationEditor.ts:476-525 | moving both points by the same offset keeps their distance |
| Shapes.Translate | src/utils/CanvasAnnotationEditor.ts:476-518 | moving a shape keeps its kind and its sizes, and shifts every anchor point (centre, corner, endpoint, vertex) by the offset |
| Shapes.TranslateInverse | src/utils/CanvasAnnotationEditor.ts:476-518 | moving by an offset and then by its negation restores the shape |
| Shapes.TranslateZero | src/utils/CanvasAnnotationEditor.ts:476-518 | a zero offset leaves the shape unchanged |
| Shapes.TranslateCompose | src/utils/CanvasAnnotationEditor.ts:476-518 | two moves in a row are one move by the summed offsets |
| ControlPoints.ControlPointsOf | src/utils/CanvasAnnotationEditor.ts:911-1019 | handle count and positions per kind: two line endpoints, four circle handles lying on the circle, the ellipse's lower-right box corner, four rectangle or square corners in order, one handle per polygon vertex, none for markers and freehand |
| ControlPoints.ControlPointsFollowTranslate | src/utils/CanvasAnnotationEditor.ts:911-1019 | after a move, every handle is the old handle shifted by the same offset, with the same role and index |
| ControlPoints.DragRect | src/utils/CanvasAnnotationEditor.ts:1780-1823 | dragging corner i spans the box between the pointer and the opposite corner; a box under 10 pixels either way, or a missing index, changes nothing |
| ControlPoints.RectDragKeepsOppositeCorner | src/utils/CanvasAnnotationEditor.ts:1780-1823 | when the drag is accepted, the corner opposite the dragged one stays where it was |
| ControlPoints.RectDragExample | src/utils/CanvasAnnotationEditor.ts:1780-1823 | a concrete accepted drag and a concrete drag rejected by the minimum size |
| ControlPoints.DragSquare | src/utils/CanvasAnnotationEditor.ts:1824-1844 | dragging a corner resizes the square about its centre to half-side max(abs(dx), abs(dy)); a side under 10, or a missing index, changes nothing |
| ControlPoints.SquareDragOnOutline | src/utils/CanvasAnnotationEditor.ts:1824-1844 | when the drag is accepted, the pointer lies on the new square's outline |
| ControlPoints.DragVertex | src/utils/CanvasAnnotationEditor.ts:1845-1851 | only the dragged polygon vertex moves, to the pointer; the vertex count is kept |
| ControlPoints.DragEndpoint | src/utils/CanvasAnnotationEditor.ts:1737-1747 | only the dragged line endpoint moves, to the pointer |
| ControlPoints.DragCircle | src/utils/CanvasAnnotationEditor.ts:1748-1757 | the centre stays and the radius never drops below 5 |
| ControlPoints.CircleDragFollowsPointer | src/utils/CanvasAnnotationEditor.ts:1748-1757 | beyond the minimum, the pointer lies on the new circle |
| ControlPoints.EllipseRatio | src/utils/CanvasAnnotationEditor.ts:1239-1244 | the ratio captured when a handle is grabbed satisfies ratio * ry = rx whenever ry > 0 |
| ControlPoints.DragEllipse | src/utils/CanvasAnnotationEditor.ts:1758-1779 | the centre stays, both radii stay at 5 or more, and the captured rx/ry ratio is kept unless a radius is clamped; a non-positive ratio changes nothing |
| ControlPoints.Drag | src/utils/CanvasAnnotationEditor.ts:1724-1856 | reshaping through any handle keeps the annotation's kind |
| Scan.LastHit | src/utils/CanvasAnnotationEditor.ts:1110-1121 | the highest index that is hit, no hit above it, and none at all exactly when nothing is hit |
| Scan.LastHitAppend | src/utils/CanvasAnnotationEditor.ts:1300-1330 | an element appended on top wins if it is hit, and otherwise changes nothing |
| HitTest.LineEndpointsHit | src/utils/CanvasAnnotationEditor.ts:1471-1505 | both endpoints of a line hit it, including a degenerate line |
| HitTest.ClosestOnSegment | src/utils/CanvasAnnotationEditor.ts:1487-1498 | the point the line test measures to lies on the segment: on its line and within its bounding box |
| HitTest.NearLineShift | src/utils/CanvasAnnotationEditor.ts:1471-1505 | the line test does not depend on where the line is placed |
| HitTest.InBoxProperties | src/utils/CanvasAnnotationEditor.ts:1559-1593 | all four corners hit, the corners may be given in either order, and a hit means lying between the min and max on both axes |
| HitTest.RayCast | src/utils/CanvasAnnotationEditor.ts:1598-1623 | the even-odd ray-casting loop answers exactly the crossing-parity definition of "inside" |
| HitTest.NoCrossingsOffToOneSide | src/utils/CanvasAnnotationEditor.ts:1598-1623 | a polygon entirely above or below the ray's height has no crossings |
| HitTest.CrossesReversed | src/utils/CanvasAnnotationEditor.ts:1598-1623 | whether an edge crosses the ray does not depend on its direction |
| HitTest.ShortOutlineNeverHit | src/utils/CanvasAnnotationEditor.ts:1598-1623 | an outline of at most two points contains nothing |
| HitTest.CrossesShift | src/utils/CanvasAnnotationEditor.ts:1598-1623 | an edge crossing is unchanged when edge and pointer move together |
| HitTest.CrossingsShift | src/utils/CanvasAnnotationEditor.ts:1598-1623 | the crossing count is unchanged when outline and pointer move together |
| HitTest.InPolygonShift | src/utils/CanvasAnnotationEditor.ts:1598-1623 | polygon containment is unchanged when outline and pointer move together |
| HitTest.InPolygonExample | src/utils/CanvasAnnotationEditor.ts:1598-1623 | the centre of a square is inside it and a point to its right is not |
| HitTest.HitAnnotation | src/utils/CanvasAnnotationEditor.ts:1425-1451 | every kind is hit at its anchor: a marker at its position, a line at either endpoint, a circle at its centre, an ellipse at its centre unless a screen radius is zero (then never), a rect or square at its first corner; an outline of at most two points is never hit |
| HitTest.MarkerHitWithin | src/utils/CanvasAnnotationEditor.ts:1456-1466 | under a sane square root, a marker is hit exactly when the click is less than 21 screen pixels from it |
| HitTest.CircleHitWithin | src/utils/CanvasAnnotationEditor.ts:1510-1526 | under a sane square root, a circle is hit exactly when the click is no farther from the centre than the screen radius measured along x |
| HitTest.EllipseCentreInside | src/utils/CanvasAnnotationEditor.ts:1531-1554 | with both screen radii non-zero, the centre is inside the ellipse |
| HitTest.InEllipseShift | src/utils/CanvasAnnotationEditor.ts:1531-1554 | the ellipse test is unchanged when centre and pointer move together |
| HitTest.SquareHitsAsRect | src/utils/CanvasAnnotationEditor.ts:1441-1443 | a square is hit exactly where the rect with equal sides is hit |
| HitTest.FreehandHitsAsPolygon | src/utils/CanvasAnnotationEditor.ts:1444-1447 | a freehand stroke is hit exactly where the polygon through the same points is hit |
| HitTest.ShapeClick | src/utils/CanvasAnnotationEditor.ts:1300-1330 | the picked annotation is the last-listed one the screen point hits, and none is picked exactly when nothing is hit |
| HitTest.ShapeClickPrefersNewest | src/utils/CanvasAnnotationEditor.ts:1300-1330 | a newly added annotation under the pointer is picked over older ones; one not under it changes nothing |
| AnnotationList.FindIndex | src/utils/AnnotationEditor.ts:247 | the first position holding the id, none before it, and none at all exactly when the id is absent |
| AnnotationList.Find | src/utils/AnnotationEditor.ts:374 | the entry at the first position holding the id |
| AnnotationList.Add | src/utils/AnnotationEditor.ts:203-211 | the list grows by one at the end and earlier entries are untouched |
| AnnotationList.Replace | src/utils/AnnotationEditor.ts:216-241 | the length is kept, the first entry with the id is replaced, nothing else changes, and an unknown id changes nothing |
| AnnotationList.ReplaceThenFind | src/utils/AnnotationEditor.ts:216-241 | after an update, looking up the annotation's id finds the new version |
| AnnotationList.AddAnnotation | src/utils/AnnotationEditor.ts:203-211 | the new annotation is listed, every id listed before still is, a valid selection stays valid, and under a fresh id the lookup finds exactly the new annotation |
| AnnotationList.UpdateAnnotation | src/utils/AnnotationEditor.ts:216-241 | for a listed id the lookup finds the new annotation at the same position; the set of listed ids and a valid selection are kept; an unlisted id changes nothing |
| AnnotationList.Remove | src/utils/AnnotationEditor.ts:246-263 | the first entry with the id is gone, entries before it stay and later ones move up by one, and an unknown id changes nothing |
| AnnotationList.RemoveAfterAdd | src/utils/AnnotationEditor.ts:246-263 | removing an annotation just added under a fresh id gives back the list |
| AnnotationList.RemoveKeepsOthers | src/utils/AnnotationEditor.ts:246-263 | removing one id keeps every other id present, and adds none |
| AnnotationList.SetAnnotations | src/utils/AnnotationEditor.ts:194-198 | loading a list drops the selection |
| AnnotationList.ClearSelection | src/utils/CanvasAnnotationEditor.ts:264-267 | the selection is dropped and the list kept |
| AnnotationList.AddCommitted | src/utils/AnnotationEditor.ts:781-782 | a committed shape is appended; no commit means no change; the selection is kept |
| AnnotationList.AddCommittedKeepsSelectionValid | src/utils/AnnotationEditor.ts:203-211 | appending keeps a valid selection valid |
| AnnotationList.DeleteAnnotation | src/utils/AnnotationEditor.ts:246-263 | an unknown id changes nothing; a known one is removed, and the selection is cleared when it was that id |
| AnnotationList.DeleteKeepsSelectionValid | src/utils/AnnotationEditor.ts:246-263 | after a delete, the selection, if any, still names a listed annotation |
| AnnotationList.Select | src/utils/AnnotationEditor.ts:373-399 | only an id present in the list becomes the selection; otherwise the selection stays |
| Drawing.Initial | src/utils/AnnotationEditor.ts:39-54 | a new editor has no kind chosen, is not drawing, starts ids at 1 and has nothing half-drawn |
| Drawing.AllIdleIsEmpty | src/utils/AnnotationEditor.ts:441-454 | "nothing of any kind half-drawn" is exactly the all-empty buffer state that `cancelDraw` sets |
| Drawing.SetDrawType | src/utils/AnnotationEditor.ts:275-367 | the kind becomes current and drawing stops; only that kind's buffers are emptied and every other kind's are kept; only a square choice sets the size; ids, colour and mode are kept |
| Drawing.SetDrawTypeIdempotent | src/utils/AnnotationEditor.ts:275-367 | choosing the same kind and size again changes nothing |
| Drawing.CancelDraw | src/utils/AnnotationEditor.ts:432-455 | no kind chosen, not drawing, every buffer empty; the id counter, colour, size and mode are kept |
| Drawing.Commit | src/utils/AnnotationEditor.ts:767-790 | the shape gets id `String(nextId)`, the current colour and empty info, and the counter advances by one; multi mode keeps drawing state, single mode cancels drawing |
| Drawing.FinishLine | src/utils/AnnotationEditor.ts:812-842 | commits exactly when both endpoints are set, a line between the buffered endpoints, under the commit discipline; never starts a drag |
| Drawing.FinishCircle | src/utils/AnnotationEditor.ts:867-896 | commits exactly when centre and radius are set, a circle with that centre and radius; never starts a drag |
| Drawing.FinishEllipse | src/utils/AnnotationEditor.ts:980-1014 | commits exactly when centre and both radii are set, an ellipse with that centre and those radii; never starts a drag |
| Drawing.FinishRect | src/utils/AnnotationEditor.ts:921-957 | commits exactly when start, width and height are set; with non-negative sizes the origin is the start point |
| Drawing.FinishSquare | src/utils/AnnotationEditor.ts:1032-1056 | commits exactly when a start point is set, a square at that start point with side equal to the configured square size; never starts a drag |
| Drawing.FinishPolygon | src/utils/AnnotationEditor.ts:1138-1159 | commits exactly when at least three vertices exist, with those vertices; otherwise nothing changes |
| Drawing.FinishFreehand | src/utils/AnnotationEditor.ts:1185-1215 | commits exactly when at least two points were traced, with those points; otherwise nothing changes |
| Drawing.PressPolygon | src/utils/AnnotationEditor.ts:1058-1092 | a press closes the polygon exactly when it has at least three vertices and the press is within 15 screen pixels of the first one; any other press appends a vertex, and the first vertex starts drawing |
| Drawing.Press | src/utils/AnnotationEditor.ts:619-654 | with no kind chosen nothing happens; a marker is committed by the press; every step follows the commit discipline and keeps sizes non-negative |
| Drawing.Move | src/utils/AnnotationEditor.ts:686-714 | a move never commits, never changes the kind, drawing flag or counter, does nothing outside a drag, and keeps sizes non-negative |
| Drawing.Release | src/utils/AnnotationEditor.ts:719-750 | outside a drag nothing happens; with no kind, a marker or a polygon chosen nothing happens; for the dragged kinds the drag ends (drawing is false afterwards) and the drawn shape is committed under the commit discipline |
| Drawing.DoubleClick | src/utils/CanvasAnnotationEditor.ts:1919-1925 | commits exactly when a polygon with at least three vertices is being drawn |
| Drawing.Escape | src/utils/CanvasAnnotationEditor.ts:1930-1935 | cancels drawing exactly when a shape is being drawn, keeping the id counter, colour, square size and multi mode |
| Drawing.MarkerGesture | src/utils/AnnotationEditor.ts:753-790 | one press commits a marker at the press point and clears the marker buffer |
| Drawing.LineGesture | src/utils/AnnotationEditor.ts:793-842 | press, move, release commits the line from the press point to the release-time end point |
| Drawing.CircleClick | src/utils/AnnotationEditor.ts:844-896 | a press and release without a move commits a circle of radius 0 at the press point |
| Drawing.CircleGesture | src/utils/AnnotationEditor.ts:844-896 | press, drag and release commit a circle centred at the press point whose radius is the square root of the squared distance to the drag point |
| Drawing.RectGesture | src/utils/AnnotationEditor.ts:898-957 | press, move, release commits a box at the press point whose sizes are the absolute offsets to the moved-to point |
| Drawing.EllipseGesture | src/utils/AnnotationEditor.ts:959-1014 | without a move no ellipse is committed; press, move, release commits the ellipse whose radii are the absolute offsets |
| Drawing.SquareGesture | src/utils/AnnotationEditor.ts:1016-1056 | press and release commits a square at the press point with the configured side |
| Drawing.FreehandMovesAppend | src/utils/AnnotationEditor.ts:1170-1178 | during a freehand drag every move appends its point, in order |
| Drawing.FreehandGesture | src/utils/AnnotationEditor.ts:1161-1215 | press, moves, release commits exactly when at least one move happened, with the press point followed by the moved-to points |
| Drawing.Apply | src/utils/AnnotationEditor.ts:771 | every input moves the counter by one exactly when it commits, and the commit carries the old counter as its id |
| Drawing.RunIds | src/utils/AnnotationEditor.ts:771 | over any input sequence, the k-th committed annotation has id `String(nextId + k)` and the counter ends advanced by the number of commits |
| Drawing.RunIdsIncrease | src/utils/AnnotationEditor.ts:771 | annotations committed in one session have pairwise distinct ids whose numeric values increase in commit order |
| SvgEditor.Initial | src/utils/AnnotationEditor.ts:39-54 | an empty list, no selection, no kind chosen, ids from 1, every flag down |
| SvgEditor.SetDrawType | src/utils/AnnotationEditor.ts:275-367 | exactly the chosen kind's flag is raised, and drawing is reset as in `Drawing.SetDrawType` |
| SvgEditor.CancelDraw | src/utils/AnnotationEditor.ts:432-455 | drawing is reset and nothing is half-drawn, but the flags are left as they were |
| SvgEditor.ShapeClick | src/utils/AnnotationEditor.ts:659-681 | the element's id becomes the selection exactly when it is non-empty and names a listed annotation; the list and drawing state are untouched |
| SvgEditor.MouseDown | src/utils/AnnotationEditor.ts:619-654 | with no kind chosen, a press is a shape click; otherwise it is a drawing press whose commit is appended |
| SvgEditor.MouseMove | src/utils/AnnotationEditor.ts:686-714 | with no kind chosen nothing changes; otherwise it is a drawing move; the list is never touched |
| SvgEditor.MouseUp | src/utils/AnnotationEditor.ts:719-750 | with no kind chosen nothing changes; otherwise it is a drawing release whose commit is appended |
| SvgEditor.DeleteAnnotation | src/utils/AnnotationEditor.ts:246-263 | the list delete, with drawing state and flags untouched |
| SvgEditor.Handle | src/utils/AnnotationEditor.ts:619-750 | only choosing a kind moves the flags; moves, kind choices and cancels leave list and selection alone; a press or release appends at most one annotation and keeps the rest |
| SvgEditor.Replay | src/utils/AnnotationEditor.ts:619-750 | over any run without a kind choice the flags stay; over any run without deletes or loads the old list stays a prefix of the new one |
| SvgEditor.InitialInvariant | src/utils/AnnotationEditor.ts:39-54 | a new editor satisfies the invariant |
| SvgEditor.HandleKeepsInvariant | src/utils/AnnotationEditor.ts:246-367 | each event keeps three promises: only the chosen kind's flag is raised, the selection names a listed annotation, and drawn sizes are non-negative |
| SvgEditor.ReplayKeepsInvariant | src/utils/AnnotationEditor.ts:619-750 | the same holds after any sequence of events |
| SvgEditor.FlagsOutliveCancel | src/utils/AnnotationEditor.ts:432-455 | after choosing a kind and cancelling, that kind's flag is still the only one raised |
| CanvasEditor.Initial | src/utils/CanvasAnnotationEditor.ts:39-111 | an empty list, no selection, not moving or dragging, no kind chosen, ids from 1 |
| CanvasEditor.ControlPointAt | src/utils/CanvasAnnotationEditor.ts:1110-1121 | the grabbed handle is the last-listed one within 15 screen pixels, and none is grabbed exactly when no handle is that close |
| CanvasEditor.StartMove | src/utils/CanvasAnnotationEditor.ts:323-341 | for a listed id, move mode records the id and a copy of the annotation; an unknown id changes nothing |
| CanvasEditor.SaveMove | src/utils/CanvasAnnotationEditor.ts:530-549 | ends move mode and keeps the moved shape; without move mode nothing changes |
| CanvasEditor.CancelMove | src/utils/CanvasAnnotationEditor.ts:554-576 | puts the saved copy back at the moving id's position and ends move mode; without move mode nothing changes |
| CanvasEditor.MouseDown | src/utils/CanvasAnnotationEditor.ts:1212-1295 | in move mode only move fields change: a grabbed handle is the one `ControlPointAt` picks, and grabbing an ellipse records its ratio; with no handle under the pointer, a press on the moving shape starts a whole-shape drag from the pointer (`DraggingAt`), and a press elsewhere changes nothing; with no kind chosen the top-most hit shape is selected; otherwise it is a drawing press whose commit is appended |
| CanvasEditor.ControlPointDrag | src/utils/CanvasAnnotationEditor.ts:1724-1856 | the moving annotation's geometry becomes `Drag` of the grabbed handle to the pointer; the others, the selection and move mode stay; without a moving id or a grabbed handle nothing changes |
| CanvasEditor.TranslateDrag | src/utils/CanvasAnnotationEditor.ts:1666-1686 | while dragging, the moving annotation is shifted by pointer minus offset and the offset becomes the pointer; nothing else moves |
| CanvasEditor.MouseMove | src/utils/CanvasAnnotationEditor.ts:1659-1719 | a move never starts or ends move mode, never changes the selection, and reshapes at most the moving annotation |
| CanvasEditor.MouseUp | src/utils/CanvasAnnotationEditor.ts:1861-1914 | ends a handle drag or a translation drag; otherwise it is a drawing release; the list only grows, by at most one entry at the end |
| CanvasEditor.DoubleClick | src/utils/CanvasAnnotationEditor.ts:1919-1925 | the drawing double-click, with its commit appended and move mode untouched |
| CanvasEditor.KeyDown | src/utils/CanvasAnnotationEditor.ts:1930-1935 | any key but Escape, and Escape when no shape is being drawn, change nothing; Escape while drawing clears the kind, the drag and every buffer, keeping the id counter and the settings |
| CanvasEditor.Handle | src/utils/CanvasAnnotationEditor.ts:1212-1935 | no mouse or key event changes move mode's id or saved copy, and each one either only appends to the list or reshapes just the moving annotation |
| CanvasEditor.Replay | src/utils/CanvasAnnotationEditor.ts:1212-1935 | over any run of events move mode's id and saved copy stay, and outside move mode the old list stays a prefix of the new one |
| CanvasEditor.TracksFinds | src/utils/CanvasAnnotationEditor.ts:554-576 | while in move mode, the moving id is still found at its original position |
| CanvasEditor.HandleKeepsTracking | src/utils/CanvasAnnotationEditor.ts:1212-1935 | each event keeps the moving annotation's id at its position and leaves every other entry of the original list untouched |
| CanvasEditor.ReplayKeepsTracking | src/utils/CanvasAnnotationEditor.ts:1212-1935 | the same holds after any sequence of events |
| CanvasEditor.MoveThenCancelRestores | src/utils/CanvasAnnotationEditor.ts:554-576 | start move, any mouse and key events, cancel: the original list is restored in front, and move mode is over |
| CanvasEditor.MoveThenSaveKeeps | src/utils/CanvasAnnotationEditor.ts:530-549 | start move, any events, save: the edited list is kept as it is, and move mode is over |
| CanvasEditor.HandleDragStep | src/utils/CanvasAnnotationEditor.ts:1724-1856 | one mouse move during a handle drag reshapes the moving annotation by `Drag` and keeps the handle grabbed |
| CanvasEditor.DragStep | src/utils/CanvasAnnotationEditor.ts:1666-1686 | one mouse move during a translation drag shifts the shape so the grab point follows the pointer |
| CanvasEditor.DragToTwice | src/utils/CanvasAnnotationEditor.ts:1666-1686 | two successive drags land where one drag to the last pointer would |
| CanvasEditor.DragFollowsPointer | src/utils/CanvasAnnotationEditor.ts:1666-1686 | after any non-empty run of moves, the shape is where a single move to the last pointer would put it |
| CanvasEditor.FindIndexAfterReshape | src/utils/CanvasAnnotationEditor.ts:1672-1674 | reshaping the entry found under an id, without changing the id, leaves the lookup result unchanged |
| AnnotationStore.Initial | src/store/modules/annotation.ts:12-17 | an empty list, no selection, no kind chosen, single-shot mode |
| AnnotationStore.SelectedAnnotation | src/store/modules/annotation.ts:22-27 | the entry at the selected index, and none when the index is off either end of the list |
| AnnotationStore.SetAnnotations | src/store/modules/annotation.ts:33-36 | the list is replaced; the selected index, kind, colour, mode and square size are kept |
| AnnotationStore.Add | src/store/modules/annotation.ts:41-43 | appends, keeping the selection and the chosen kind |
| AnnotationStore.Merge | src/store/modules/annotation.ts:51 | every field the patch carries wins, and every absent field keeps its value |
| AnnotationStore.Update | src/store/modules/annotation.ts:48-53 | only the first entry with the id is merged with the patch; the length and the other entries stay; an unknown id changes nothing |
| AnnotationStore.UpdateEmptyPatch | src/store/modules/annotation.ts:48-53 | an empty patch changes nothing |
| AnnotationStore.UpdateIdempotent | src/store/modules/annotation.ts:48-53 | a patch that keeps the id has the same effect applied twice as once |
| AnnotationStore.Delete | src/store/modules/annotation.ts:58-72 | the first entry with the id is removed; the selected index is dropped if it was that entry and moved up by one if it was later; an unknown id changes nothing |
| AnnotationStore.DeleteKeepsSelected | src/store/modules/annotation.ts:58-72 | after a delete, the same annotation is still selected, unless it was the deleted one, which leaves nothing selected |
| AnnotationStore.DeleteAfterAdd | src/store/modules/annotation.ts:41-72 | deleting an annotation just added under a fresh id restores the whole store, when the index was in range |
| AnnotationStore.GetAfterAdd | src/store/modules/annotation.ts:41-131 | an annotation added under a fresh id is what the lookup by that id returns |
| AnnotationStore.Clear | src/store/modules/annotation.ts:77-81 | the list, the selection and the chosen kind are cleared; the colour, mode and size stay |
| AnnotationStore.ToggleMultiMode | src/store/modules/annotation.ts:107-110 | the mode flips and the returned value is the new mode |
| AnnotationStore.ToggleTwice | src/store/modules/annotation.ts:107-110 | toggling twice restores the store |
| AnnotationStore.GetAnnotationById | src/store/modules/annotation.ts:129-131 | a result exists exactly when the id is listed, and it is the entry at the first position holding that id |
| AnnotationStore.ClearDrawState | src/store/modules/annotation.ts:136-140 | the chosen kind is dropped in single-shot mode and kept in multi mode; nothing else changes |

## Left out

- Rendering is not modelled: previews, shapes, control-point drawing, fill opacity, cursors, the move toolbar and the annotation pop-ups, because they only paint.
- Event-listener binding, viewer panning and the wheel handler are not modelled, because they only route events to the viewer.
- The `onEdit`, `onAnnotationSelected` and API callbacks are not modelled, because they call code outside the editors.
- Floating-point rounding is not modelled: coordinates are exact reals.
- Ids.IdOf: the id counter is an unbounded integer. In the source `nextId` is a JavaScript number, exact only below 2^53; from 2^53 on `nextId++` stops advancing, and from 10^21 on `String` prints an exponent ("1e+21"). The digit-string promise holds only below those bounds.
- Drawing.RunIds: the k-th committed id is `String(nextId + k)` only while the counter stays below 2^53, where JavaScript numbers are exact integers.
- Drawing.RunIdsIncrease: distinct, increasing ids rely on the unbounded counter; in the source, commits from 2^53 on repeat the id 9007199254740992.
- The image-to-screen mapping and `Math.sqrt` are parameters, not definitions.
- The freehand `d` path string is not modelled, because it is float-to-text formatting; freehand annotations keep their point list only.
- The canvas editor's polygon preview point (`polygonPreviewPoint`) is not modelled, because only the renderer reads it.
- JavaScript's distinction between `undefined` and `null` is not modelled: both are `None`.
- The plain setters are not modelled: `setCurrentColor`, `setAllowMulti`, and the store's `setCurrentType`, `setCurrentColor`, `setSelectedIndex`, `setMultiMode` and `setSquareSize`. Each just overwrites one field.
- Lists and annotations are modelled as values. Both editors keep the caller's array by reference (`setAnnotations`), and `moveAnnotation` mutates `params` and polygon points in place. An object shared between two entries, or with the caller, would change everywhere at once. The model has no sharing, so `CanvasEditor.OnlyMovingReshaped` and `CanvasEditor.MoveThenCancelRestores` describe lists whose entries share no objects.
- `annotationsCount` is the list length and has no separate member.
- The id counter is never reset, not even by loading a list. The model keeps this, so a loaded list may already hold an id the counter will produce later.
- Drawing.FinishRect: the source drops the `Math.min` origin, since width and height are stored as absolute offsets. The committed origin is therefore the press point, not the box's minimum corner. The model follows the code.
- AnnotationStore.Patch: the model cannot express a patch that sets a field to `undefined`, or one that changes only the kind without new parameters, since kind and parameters are one value.
- AnnotationStore.Merge: a patch whose `params` belong to another kind changes the annotation's kind in the model, because kind and parameters are one value. In the source the spread keeps the old `type` next to the new `params`, an inconsistent object the model cannot represent.
- AnnotationStore.Update: inherits the mismatched-kind case from `AnnotationStore.Merge`; for patches whose parameters keep the kind, it is exact.
- CanvasEditor.MouseDown: move mode compares `movingAnnotationId` by JavaScript truthiness. An empty-string id therefore counts as "not moving", which the model keeps through `Truthy`.
- ControlPoints.DragVertex: a vertex index past the end would grow the array in JavaScript. The model leaves the polygon unchanged, because a handle index always comes from the same polygon's vertex list.
- CanvasEditor.Replay: event sequences cover mouse, double-click and key events; list edits and mode changes during move mode are outside them.
- SvgEditor.Flags: the eight `drawingX` flags are written by `setDrawType` but read nowhere in the source, so the model only proves how they relate to the chosen kind.
- The SVG editor has no double-click or Escape handler, so polygons there close only by clicking near the first vertex.

=== FILE: annotation_list.dfy ===
/**
 * The annotation list and the selected id, as both editors keep them, with
 * the id lookup the editors and the store share.
 */
module AnnotationList {
  import opened Optional
  import opened Shapes

  /** `findIndex(a => a.id === id)`: the first position holding `id`. */
  function FindIndex(l: seq<Annotation>, id: string): (r: Option<nat>)
    ensures r.Some? ==> r.value < |l| && l[r.value].id == id
    ensures r.Some? ==> forall j :: 0 <= j < r.value ==> l[j].id != id
    ensures r.None? <==> forall j :: 0 <= j < |l| ==> l[j].id != id
  {
    if |l| == 0 then None
    else if l[0].id == id then Some(0)
    else
      match FindIndex(l[1..], id)
      case Some(k) => Some(k + 1)
      case None => None
  }

  /** A position holding `id`, with no earlier one, is the one the lookup finds. */
  lemma FindIndexFirst(l: seq<Annotation>, id: string, i: nat)
    requires i < |l| && l[i].id == id
    requires forall j :: 0 <= j < i ==> l[j].id != id
    ensures FindIndex(l, id) == Some(i)
  {
    var r := FindIndex(l, id);
    assert r.Some?;
    assert !(r.value < i);
    assert !(i < r.value);
  }

  /** `find(a => a.id === id)`: the first annotation holding `id`. */
  function Find(l: seq<Annotation>, id: string): (r: Option<Annotation>)
    ensures r.Some? <==> FindIndex(l, id).Some?
    ensures r.Some? ==> r.value == l[FindIndex(l, id).value]
  {
    match FindIndex(l, id)
    case Some(i) => Some(l[i])
    case None => None
  }

  predicate HasId(l: seq<Annotation>, id: string)
  {
    exists j :: 0 <= j < |l| && l[j].id == id
  }

  /** Appending: the list grows by one at the end and earlier entries are untouched. */
  function Add(l: seq<Annotation>, a: Annotation): (r: seq<Annotation>)
    ensures |r| == |l| + 1 && r[|l|] == a
    ensures forall j :: 0 <= j < |l| ==> r[j] == l[j]
  {
    l + [a]
  }

  /**
   * Replacing the first entry whose id matches: the length is kept and no
   * other entry changes; an unknown id changes nothing.
   */
  function Replace(l: seq<Annotation>, a: Annotation): (r: seq<Annotation>)
    ensures |r| == |l|
    ensures FindIndex(l, a.id).None? ==> r == l
    ensures FindIndex(l, a.id).Some? ==>
      var i := FindIndex(l, a.id).value;
      r[i] == a && forall j :: 0 <= j < |l| && j != i ==> r[j] == l[j]
  {
    match FindIndex(l, a.id)
    case Some(i) => l[i := a]
    case None => l
  }

  /** After a replacement, looking up its id finds the replacement. */
  lemma ReplaceThenFind(l: seq<Annotation>, a: Annotation)
    requires HasId(l, a.id)
    ensures Find(Replace(l, a), a.id) == Some(a)
  {
    var i := FindIndex(l, a.id).value;
    var r := Replace(l, a);
    forall j | 0 <= j < i
      ensures r[j].id != a.id
    {
      assert r[j] == l[j];
    }
    FindIndexFirst(r, a.id, i);
  }

  /**
   * Removing the first entry whose id matches: the entries before it stay
   * where they were, those after it move up by one; an unknown id changes
   * nothing.
   */
  function Remove(l: seq<Annotation>, id: string): (r: seq<Annotation>)
    ensures FindIndex(l, id).None? ==> r == l
    ensures FindIndex(l, id).Some? ==>
      var i := FindIndex(l, id).value;
      |r| == |l| - 1 &&
      (forall j :: 0 <= j < i ==> r[j] == l[j]) &&
      (forall j :: i <= j < |r| ==> r[j] == l[j + 1])
  {
    match FindIndex(l, id)
    case Some(i) => l[..i] + l[i + 1..]
    case None => l
  }

  /** Removing what was just added, under a fresh id, gives back the list. */
  lemma RemoveAfterAdd(l: seq<Annotation>, a: Annotation)
    requires !HasId(l, a.id)
    ensures Remove(Add(l, a), a.id) == l
  {
    assert FindIndex(Add(l, a), a.id) == Some(|l|);
  }

  /** Removing one id leaves every entry with another id in the list. */
  lemma RemoveKeepsOthers(l: seq<Annotation>, id: string, other: string)
    requires other != id
    ensures HasId(Remove(l, id), other) <==> HasId(l, other)
  {
    var r := Remove(l, id);
    if FindIndex(l, id).Some? {
      var i := FindIndex(l, id).value;
      if HasId(l, other) {
        var j :| 0 <= j < |l| && l[j].id == other;
        if j < i {
          assert r[j].id == other;
        } else {
          assert j != i;
          assert r[j - 1].id == other;
        }
      }
      if HasId(r, other) {
        var j :| 0 <= j < |r| && r[j].id == other;
        if j < i {
          assert l[j].id == other;
        } else {
          assert l[j + 1].id == other;
        }
      }
    }
  }

  /** An editor's list together with the id of the selected annotation. */
  datatype Editor = Editor(annotations: seq<Annotation>, selectedId: Option<string>)

  /** Loading a list drops the selection. */
  function SetAnnotations(e: Editor, l: seq<Annotation>): (r: Editor)
    ensures r.annotations == l && r.selectedId.None?
  {
    Editor(l, None)
  }

  function ClearSelection(e: Editor): (r: Editor)
    ensures r.annotations == e.annotations && r.selectedId.None?
  {
    e.(selectedId := None)
  }

  /**
   * `addAnnotation`: the annotation goes to the end, every id listed before
   * is still listed, and the selection stays; under a fresh id it is what
   * the lookup by that id finds.
   */
  function AddAnnotation(e: Editor, a: Annotation): (r: Editor)
    ensures r.annotations == Add(e.annotations, a) && r.selectedId == e.selectedId
    ensures HasId(r.annotations, a.id)
    ensures forall id :: HasId(e.annotations, id) ==> HasId(r.annotations, id)
    ensures SelectionValid(e) ==> SelectionValid(r)
    ensures !HasId(e.annotations, a.id) ==> Find(r.annotations, a.id) == Some(a)
  {
    var r := e.(annotations := Add(e.annotations, a));
    assert r.annotations[|e.annotations|] == a;
    assert forall j :: 0 <= j < |e.annotations| ==> r.annotations[j] == e.annotations[j];
    if !HasId(e.annotations, a.id) then
      FindIndexFirst(r.annotations, a.id, |e.annotations|);
      r
    else r
  }

  /**
   * `updateAnnotation`: a listed id now finds the new annotation, in the
   * same place, and the set of listed ids and the selection stay; an id not
   * listed leaves the editor as it was.
   */
  function UpdateAnnotation(e: Editor, a: Annotation): (r: Editor)
    ensures r.annotations == Replace(e.annotations, a) && r.selectedId == e.selectedId
    ensures !HasId(e.annotations, a.id) ==> r == e
    ensures HasId(e.annotations, a.id) ==>
      Find(r.annotations, a.id) == Some(a) && FindIndex(r.annotations, a.id) == FindIndex(e.annotations, a.id)
    ensures forall id :: HasId(r.annotations, id) <==> HasId(e.annotations, id)
    ensures SelectionValid(e) ==> SelectionValid(r)
  {
    var l := e.annotations;
    var r := e.(annotations := Replace(l, a));
    if HasId(l, a.id) then
      ReplaceThenFind(l, a);
      ReplaceKeepsIds(l, a);
      r
    else r
  }

  /** Replacing an entry by one with the same id keeps the set of listed ids. */
  lemma ReplaceKeepsIds(l: seq<Annotation>, a: Annotation)
    ensures forall id :: HasId(Replace(l, a), id) <==> HasId(l, id)
  {
    var r := Replace(l, a);
    forall id
      ensures HasId(r, id) <==> HasId(l, id)
    {
      if HasId(l, id) {
        var j :| 0 <= j < |l| && l[j].id == id;
        assert r[j].id == id;
      }
      if HasId(r, id) {
        var j :| 0 <= j < |r| && r[j].id == id;
        assert l[j].id == id;
      }
    }
  }

  /** Append what a drawing step committed, if anything. */
  function AddCommitted(e: Editor, committed: Option<Annotation>): (r: Editor)
    ensures r.selectedId == e.selectedId
    ensures committed.None? ==> r.annotations == e.annotations
    ensures committed.Some? ==> r.annotations == e.annotations + [committed.value]
  {
    match committed
    case Some(a) => AddAnnotation(e, a)
    case None => e
  }

  /** Appending keeps every id that was in the list. */
  lemma AddCommittedKeepsSelectionValid(e: Editor, committed: Option<Annotation>)
    requires SelectionValid(e)
    ensures SelectionValid(AddCommitted(e, committed))
  {
    if e.selectedId.Some? && committed.Some? {
      var j :| 0 <= j < |e.annotations| && e.annotations[j].id == e.selectedId.value;
      assert AddCommitted(e, committed).annotations[j].id == e.selectedId.value;
    }
  }

  /**
   * Deleting by id: an unknown id changes nothing; a known one is removed
   * and, if it was the selected one, the selection is cleared.
   */
  function DeleteAnnotation(e: Editor, id: string): (r: Editor)
    ensures !HasId(e.annotations, id) ==> r == e
    ensures HasId(e.annotations, id) ==>
      r.annotations == Remove(e.annotations, id) &&
      r.selectedId == (if e.selectedId == Some(id) then None else e.selectedId)
  {
    match FindIndex(e.annotations, id)
    case Some(_) =>
      Editor(Remove(e.annotations, id), if e.selectedId == Some(id) then None else e.selectedId)
    case None => e
  }

  /** The selected id, if any, names an annotation in the list. */
  predicate SelectionValid(e: Editor)
  {
    e.selectedId.Some? ==> HasId(e.annotations, e.selectedId.value)
  }

  /** A selection that survives a delete still names an annotation in the list. */
  lemma DeleteKeepsSelectionValid(e: Editor, id: string)
    requires SelectionValid(e)
    ensures SelectionValid(DeleteAnnotation(e, id))
  {
    if e.selectedId.Some? && e.selectedId.value != id {
      RemoveKeepsOthers(e.annotations, id, e.selectedId.value);
    }
  }

  /** Selecting by id (`showPopupForAnnotation`): only a known id becomes the selection. */
  function Select(e: Editor, id: string): (r: Editor)
    ensures r.annotations == e.annotations
    ensures r.selectedId == (if HasId(e.annotations, id) then Some(id) else e.selectedId)
  {
    if FindIndex(e.annotations, id).Some? then e.(selectedId := Some(id)) else e
  }
}

=== FILE: canvas_editor.dfy ===
/**
 * The canvas editor's own behaviour on top of the shared drawing machine:
 * picking an annotation by clicking it, and move mode, in which one
 * annotation can be dragged as a whole or reshaped by its handles and the
 * change then kept or undone.
 *
 * A mouse event carries both the canvas position and the image position of
 * the pointer; the viewer's mapping between them is outside this model.
 */
module CanvasEditor {
  import opened Optional
  import opened Geometry
  import opened Shapes
  import opened Scan
  import opened ControlPoints
  import opened HitTest
  import opened AnnotationList
  import Drawing

  /** A press within this many screen pixels of a handle grabs it. */
  const HandleRadius: real := 15.0

  /** The pointer of a mouse event, on the canvas and in image coordinates. */
  datatype Pointer = Pointer(screen: Point, image: Point)

  /** JavaScript truthiness of an optional id: absent and empty are both false. */
  predicate Truthy(o: Option<string>)
  {
    o.Some? && o.value != ""
  }

  /** Move mode: which annotation moves, its saved copy, and the drag in progress. */
  datatype MoveMode = MoveMode(
    movingId: Option<string>,
    original: Option<Annotation>,
    isDragging: bool,
    offset: Option<Point>,
    activeControlPoint: Option<nat>,
    draggingControlPoint: bool,
    dragInfo: Option<DragInfo>,
    ellipseRatio: real)

  const Idle: MoveMode := MoveMode(None, None, false, None, None, false, None, 1.0)

  datatype Canvas = Canvas(editor: Editor, draw: Drawing.DrawState, move: MoveMode)

  /** A freshly constructed canvas editor. */
  function Initial(allowMulti: bool): (c: Canvas)
    ensures c.editor.annotations == [] && c.editor.selectedId.None?
    ensures !Truthy(c.move.movingId) && !c.move.isDragging && !c.move.draggingControlPoint
    ensures c.draw.currentType.None? && c.draw.nextId == 1
  {
    Canvas(Editor([], None), Drawing.Initial(allowMulti), Idle)
  }

  // ---------------------------------------------------------------------
  // Picking

  /** The handle under screen point `q`, preferring the one listed last. */
  function ControlPointAt(env: Env, cps: seq<ControlPoint>, q: Point): (r: Option<nat>)
    ensures r.Some? ==> r.value < |cps| && SqDist(q, env.toScreen(cps[r.value].pos)) < HandleRadius * HandleRadius
    ensures r.Some? ==> forall j :: r.value < j < |cps| ==> SqDist(q, env.toScreen(cps[j].pos)) >= HandleRadius * HandleRadius
    ensures r.None? <==> forall j :: 0 <= j < |cps| ==> SqDist(q, env.toScreen(cps[j].pos)) >= HandleRadius * HandleRadius
  {
    LastHit(cps, (cp: ControlPoint) => SqDist(q, env.toScreen(cp.pos)) < HandleRadius * HandleRadius)
  }

  // ---------------------------------------------------------------------
  // Move mode entry and exit

  /** `startMoveAnnotation`: an unknown id is ignored; otherwise its annotation is saved for undo. */
  function StartMove(c: Canvas, id: string): (r: Canvas)
    ensures r.editor == c.editor && r.draw == c.draw
    ensures !HasId(c.editor.annotations, id) ==> r == c
    ensures HasId(c.editor.annotations, id) ==>
      r.move.movingId == Some(id) &&
      r.move.original == Find(c.editor.annotations, id) &&
      r.move.original.Some? && r.move.original.value.id == id
  {
    match Find(c.editor.annotations, id)
    case Some(a) => c.(move := c.move.(movingId := Some(id), original := Some(a)))
    case None => c
  }

  /** `saveMoveAnnotation`: the edited list is kept and move mode ends. */
  function SaveMove(c: Canvas): (r: Canvas)
    ensures r.editor == c.editor && r.draw == c.draw
    ensures Truthy(c.move.movingId) ==> r.move.movingId.None? && r.move.original.None?
    ensures !Truthy(c.move.movingId) ==> r == c
  {
    if Truthy(c.move.movingId) then c.(move := c.move.(movingId := None, original := None)) else c
  }

  /**
   * `cancelMoveAnnotation`: the saved copy goes back where the moving id is
   * found and move mode ends. The drag flags are left as they were.
   */
  function CancelMove(c: Canvas): (r: Canvas)
    ensures r.draw == c.draw && r.editor.selectedId == c.editor.selectedId
    ensures |r.editor.annotations| == |c.editor.annotations|
    ensures !(Truthy(c.move.movingId) && c.move.original.Some?) ==> r == c
    ensures Truthy(c.move.movingId) && c.move.original.Some? ==>
      r.move.movingId.None? && r.move.original.None? &&
      (var l := c.editor.annotations;
       match FindIndex(l, c.move.movingId.value)
       case Some(i) => r.editor.annotations == l[i := c.move.original.value]
       case None => r.editor.annotations == l)
  {
    if Truthy(c.move.movingId) && c.move.original.Some? then
      var l := c.editor.annotations;
      var l' := match FindIndex(l, c.move.movingId.value)
        case Some(i) => l[i := c.move.original.value]
        case None => l;
      Canvas(c.editor.(annotations := l'), c.draw, c.move.(movingId := None, original := None))
    else c
  }

  // ---------------------------------------------------------------------
  // Mouse and keyboard

  /**
   * Mouse-down. In move mode it grabs a handle of the moving annotation, or
   * the annotation itself, and changes nothing else. Otherwise with no kind
   * chosen it selects the top-most annotation under the pointer; with a
   * kind chosen it feeds the drawing machine.
   */
  function MouseDown(c: Canvas, env: Env, p: Pointer): (r: Canvas)
    ensures Truthy(c.move.movingId) ==>
      r.editor == c.editor && r.draw == c.draw &&
      r.move.movingId == c.move.movingId && r.move.original == c.move.original
    ensures Truthy(c.move.movingId) && r.move.draggingControlPoint && !c.move.draggingControlPoint ==>
      Find(c.editor.annotations, c.move.movingId.value).Some? && r.move.activeControlPoint.Some? &&
      var a := Find(c.editor.annotations, c.move.movingId.value).value;
      var cps := ControlPointsOf(a.params);
      var k := r.move.activeControlPoint.value;
      k < |cps| && r.move.dragInfo == Some(DragInfo(cps[k].role, cps[k].index)) &&
      ControlPointAt(env, cps, p.screen) == Some(k) &&
      (a.params.EllipseParams? ==> r.move.ellipseRatio == EllipseRatio(a.params))
    ensures Truthy(c.move.movingId) && !c.move.draggingControlPoint ==>
      match FindIndex(c.editor.annotations, c.move.movingId.value)
      case None => r == c
      case Some(i) =>
        var a := c.editor.annotations[i];
        ControlPointAt(env, ControlPointsOf(a.params), p.screen).None? ==>
          (HitAnnotation(env, p.screen, a) ==> DraggingAt(r, i) && r.move.offset == Some(p.image)) &&
          (!HitAnnotation(env, p.screen, a) ==> r == c)
    ensures !Truthy(c.move.movingId) && c.draw.currentType.None? ==>
      r.draw == c.draw && r.move == c.move && r.editor.annotations == c.editor.annotations &&
      match ShapeClick(env, c.editor.annotations, p.screen)
      case Some(i) => r.editor.selectedId == Some(c.editor.annotations[i].id)
      case None => r.editor.selectedId == c.editor.selectedId
    ensures !Truthy(c.move.movingId) && c.draw.currentType.Some? ==>
      var st := Drawing.Press(c.draw, env, p.image);
      r.move == c.move && r.draw == st.state && r.editor == AddCommitted(c.editor, st.committed)
  {
    if Truthy(c.move.movingId) then
      match Find(c.editor.annotations, c.move.movingId.value)
      case None => c
      case Some(a) =>
        var cps := ControlPointsOf(a.params);
        (match ControlPointAt(env, cps, p.screen)
         case Some(k) =>
           c.(move := c.move.(
             activeControlPoint := Some(k),
             draggingControlPoint := true,
             dragInfo := Some(DragInfo(cps[k].role, cps[k].index)),
             ellipseRatio := if a.params.EllipseParams? then EllipseRatio(a.params) else c.move.ellipseRatio))
         case None =>
           if HitAnnotation(env, p.screen, a) then c.(move := c.move.(offset := Some(p.image), isDragging := true))
           else c)
    else if c.draw.currentType.None? then
      match ShapeClick(env, c.editor.annotations, p.screen)
      case Some(i) => c.(editor := Select(c.editor, c.editor.annotations[i].id))
      case None => c
    else
      var st := Drawing.Press(c.draw, env, p.image);
      c.(draw := st.state, editor := AddCommitted(c.editor, st.committed))
  }

  /**
   * Only the annotation the moving id designates may change, and only in its
   * geometry; the list keeps its length.
   */
  predicate OnlyMovingReshaped(c: Canvas, r: Canvas)
  {
    var l := c.editor.annotations;
    |r.editor.annotations| == |l| &&
    forall j :: 0 <= j < |l| && r.editor.annotations[j] != l[j] ==>
      Truthy(c.move.movingId) && FindIndex(l, c.move.movingId.value) == Some(j) &&
      r.editor.annotations[j] == l[j].(params := r.editor.annotations[j].params)
  }

  /** The list with the geometry of entry `i` replaced. */
  function Reshape(c: Canvas, i: nat, q: Params): (r: Canvas)
    requires i < |c.editor.annotations|
  {
    c.(editor := c.editor.(annotations := c.editor.annotations[i := c.editor.annotations[i].(params := q)]))
  }

  /** Reshaping the entry the moving id designates reshapes only the moving annotation. */
  lemma ReshapeOnlyMoving(c: Canvas, i: nat, q: Params)
    requires Truthy(c.move.movingId) && FindIndex(c.editor.annotations, c.move.movingId.value) == Some(i)
    ensures OnlyMovingReshaped(c, Reshape(c, i, q))
  {
  }

  /** A handle drag: the moving annotation is reshaped by the grabbed handle. */
  function ControlPointDrag(c: Canvas, env: Env, p: Pointer): (r: Canvas)
    requires SaneSqrt(env)
    ensures r.move == c.move && r.draw == c.draw && r.editor.selectedId == c.editor.selectedId
    ensures OnlyMovingReshaped(c, r)
    ensures forall j :: 0 <= j < |r.editor.annotations| ==>
      r.editor.annotations[j].params.Kind() == c.editor.annotations[j].params.Kind()
    ensures !Truthy(c.move.movingId) || c.move.dragInfo.None? ==> r == c
    ensures Truthy(c.move.movingId) && c.move.dragInfo.Some? ==>
      match FindIndex(c.editor.annotations, c.move.movingId.value)
      case None => r == c
      case Some(i) =>
        r.editor.annotations[i].params ==
          Drag(c.editor.annotations[i].params, c.move.dragInfo.value, p.image, c.move.ellipseRatio, env)
  {
    if !Truthy(c.move.movingId) || c.move.dragInfo.None? then c
    else
      match FindIndex(c.editor.annotations, c.move.movingId.value)
      case None => c
      case Some(i) =>
        var q := Drag(c.editor.annotations[i].params, c.move.dragInfo.value, p.image, c.move.ellipseRatio, env);
        ReshapeOnlyMoving(c, i, q);
        Reshape(c, i, q)
  }

  /**
   * A whole-annotation drag: the moving annotation is shifted by the
   * pointer's travel since the last event, and the remembered pointer
   * position follows.
   */
  function TranslateDrag(c: Canvas, p: Pointer): (r: Canvas)
    requires c.move.offset.Some?
    ensures r.draw == c.draw && r.editor.selectedId == c.editor.selectedId
    ensures OnlyMovingReshaped(c, r)
    ensures r.move == c.move || r.move == c.move.(offset := Some(p.image))
    ensures Truthy(c.move.movingId) && FindIndex(c.editor.annotations, c.move.movingId.value).Some? ==>
      r == DragTo(c, FindIndex(c.editor.annotations, c.move.movingId.value).value, p)
  {
    if !Truthy(c.move.movingId) then c
    else
      match FindIndex(c.editor.annotations, c.move.movingId.value)
      case None => c
      case Some(i) =>
        var o := c.move.offset.value;
        var dx := p.image.x - o.x;
        var dy := p.image.y - o.y;
        var q := Translate(c.editor.annotations[i].params, dx, dy);
        ReshapeOnlyMoving(c, i, q);
        Reshape(c, i, q).(move := c.move.(offset := Some(Point(o.x + dx, o.y + dy))))
  }

  /** Mouse-move: a handle drag, else a whole-annotation drag, else the drawing machine. */
  function MouseMove(c: Canvas, env: Env, p: Pointer): (r: Canvas)
    requires SaneSqrt(env)
    ensures r.move.movingId == c.move.movingId && r.move.original == c.move.original
    ensures r.editor.selectedId == c.editor.selectedId
    ensures OnlyMovingReshaped(c, r)
  {
    if c.move.draggingControlPoint && c.move.activeControlPoint.Some? then ControlPointDrag(c, env, p)
    else if c.move.isDragging && Truthy(c.move.movingId) && c.move.offset.Some? then TranslateDrag(c, p)
    else if c.draw.currentType.None? then c
    else c.(draw := Drawing.Move(c.draw, env, p.image))
  }

  /** Mouse-up: ends a handle drag, else a whole-annotation drag, else feeds the drawing machine. */
  function MouseUp(c: Canvas, p: Pointer): (r: Canvas)
    ensures r.move.movingId == c.move.movingId && r.move.original == c.move.original
    ensures c.move.draggingControlPoint ==> r.editor == c.editor && r.draw == c.draw && !r.move.draggingControlPoint
    ensures !c.move.draggingControlPoint && c.move.isDragging ==>
      r.editor == c.editor && r.draw == c.draw && !r.move.isDragging && r.move.offset.None?
    ensures c.editor.annotations <= r.editor.annotations && |r.editor.annotations| <= |c.editor.annotations| + 1
    ensures r.editor.selectedId == c.editor.selectedId
  {
    if c.move.draggingControlPoint then
      c.(move := c.move.(draggingControlPoint := false, activeControlPoint := None, dragInfo := None))
    else if c.move.isDragging then
      c.(move := c.move.(isDragging := false, offset := None))
    else if c.draw.currentType.None? then c
    else
      var st := Drawing.Release(c.draw, p.image);
      c.(draw := st.state, editor := AddCommitted(c.editor, st.committed))
  }

  /** Double-click: finishes a polygon being drawn. */
  function DoubleClick(c: Canvas): (r: Canvas)
    ensures r.move == c.move
    ensures var st := Drawing.DoubleClick(c.draw);
      r.draw == st.state && r.editor == AddCommitted(c.editor, st.committed)
  {
    var st := Drawing.DoubleClick(c.draw);
    c.(draw := st.state, editor := AddCommitted(c.editor, st.committed))
  }

  /** Key-down: Escape cancels a drawing in progress; every other key is ignored. */
  function KeyDown(c: Canvas, key: string): (r: Canvas)
    ensures r.move == c.move && r.editor == c.editor
    ensures key != "Escape" ==> r == c
    ensures key == "Escape" && !c.draw.drawing ==> r == c
    ensures key == "Escape" && c.draw.drawing ==>
      r.draw.currentType.None? && !r.draw.drawing && Drawing.AllIdle(r.draw.buf)
    ensures r.draw.nextId == c.draw.nextId && r.draw.color == c.draw.color &&
      r.draw.squareSize == c.draw.squareSize && r.draw.allowMulti == c.draw.allowMulti
  {
    if key == "Escape" then c.(draw := Drawing.Escape(c.draw)) else c
  }

  // ---------------------------------------------------------------------
  // Runs of events

  datatype Event =
    | Down(p: Pointer)
    | Moved(p: Pointer)
    | Up(p: Pointer)
    | DoubleClicked
    | KeyPressed(key: string)

  /**
   * What every event keeps: move mode's id and saved copy; the list either
   * only grows at its end or has just the moving annotation reshaped.
   */
  predicate Steady(c: Canvas, r: Canvas)
  {
    r.move.movingId == c.move.movingId && r.move.original == c.move.original &&
    (c.editor.annotations <= r.editor.annotations || OnlyMovingReshaped(c, r))
  }

  function Handle(c: Canvas, env: Env, ev: Event): (r: Canvas)
    requires SaneSqrt(env)
    ensures Steady(c, r)
  {
    match ev
    case Down(p) => MouseDown(c, env, p)
    case Moved(p) => MouseMove(c, env, p)
    case Up(p) => MouseUp(c, p)
    case DoubleClicked => DoubleClick(c)
    case KeyPressed(key) => KeyDown(c, key)
  }

  /**
   * A run of events. Move mode's id and saved copy survive it, and outside
   * move mode the list only grows at its end.
   */
  function Replay(c: Canvas, env: Env, evs: seq<Event>): (r: Canvas)
    requires SaneSqrt(env)
    ensures r.move.movingId == c.move.movingId && r.move.original == c.move.original
    ensures !Truthy(c.move.movingId) ==> c.editor.annotations <= r.editor.annotations
    decreases |evs|
  {
    if |evs| == 0 then c
    else
      var h := Handle(c, env, evs[0]);
      SteadyOutsideMoveAppends(c, h);
      Replay(h, env, evs[1..])
  }

  /** Outside move mode no annotation is reshaped, so a steady step only appends. */
  lemma SteadyOutsideMoveAppends(c: Canvas, r: Canvas)
    requires Steady(c, r)
    ensures !Truthy(c.move.movingId) ==> c.editor.annotations <= r.editor.annotations
  {
  }

  /**
   * Move mode on the annotation at position `i` of the list `l` it was
   * started on: the saved copy is that annotation, the entry at `i` keeps its
   * id, and every other entry of `l` is untouched.
   */
  predicate Tracks(c: Canvas, l: seq<Annotation>, i: nat, id: string)
  {
    var m := c.editor.annotations;
    id != "" && c.move.movingId == Some(id) &&
    i < |l| <= |m| && FindIndex(l, id) == Some(i) && c.move.original == Some(l[i]) &&
    m[i].id == id &&
    forall j :: 0 <= j < |l| && j != i ==> m[j] == l[j]
  }

  /** While tracking, the moving id still designates position `i`. */
  lemma TracksFinds(c: Canvas, l: seq<Annotation>, i: nat, id: string)
    requires Tracks(c, l, i, id)
    ensures FindIndex(c.editor.annotations, id) == Some(i)
  {
    var m := c.editor.annotations;
    forall j | 0 <= j < i
      ensures m[j].id != id
    {
      assert m[j] == l[j];
    }
  }

  lemma HandleKeepsTracking(c: Canvas, env: Env, ev: Event, l: seq<Annotation>, i: nat, id: string)
    requires SaneSqrt(env)
    requires Tracks(c, l, i, id)
    ensures Tracks(Handle(c, env, ev), l, i, id)
  {
    TracksFinds(c, l, i, id);
    var r := Handle(c, env, ev);
    var m := c.editor.annotations;
    var m' := r.editor.annotations;
    if m <= m' {
      assert forall j :: 0 <= j < |m| ==> m'[j] == m[j];
    } else {
      assert OnlyMovingReshaped(c, r);
      assert forall j :: 0 <= j < |l| && j != i ==> m'[j] == l[j];
      assert m'[i].id == id by {
        if m'[i] != m[i] {
          assert m'[i] == m[i].(params := m'[i].params);
        }
      }
    }
  }

  lemma {:induction false} ReplayKeepsTracking(c: Canvas, env: Env, evs: seq<Event>, l: seq<Annotation>, i: nat, id: string)
    requires SaneSqrt(env)
    requires Tracks(c, l, i, id)
    ensures Tracks(Replay(c, env, evs), l, i, id)
    decreases |evs|
  {
    if |evs| > 0 {
      HandleKeepsTracking(c, env, evs[0], l, i, id);
      ReplayKeepsTracking(Handle(c, env, evs[0]), env, evs[1..], l, i, id);
    }
  }

  /**
   * Undo of move mode: after starting to move an annotation, any mouse and
   * key events, and a cancel, the annotations that were there before are
   * back exactly as they were (shapes drawn meanwhile stay after them), and
   * move mode is over.
   */
  lemma MoveThenCancelRestores(c: Canvas, env: Env, id: string, evs: seq<Event>)
    requires SaneSqrt(env)
    requires id != "" && HasId(c.editor.annotations, id)
    ensures var r := CancelMove(Replay(StartMove(c, id), env, evs));
      |c.editor.annotations| <= |r.editor.annotations| &&
      r.editor.annotations[..|c.editor.annotations|] == c.editor.annotations &&
      r.move.movingId.None? && r.move.original.None?
  {
    var l := c.editor.annotations;
    var i := FindIndex(l, id).value;
    var s := StartMove(c, id);
    assert Tracks(s, l, i, id);
    ReplayKeepsTracking(s, env, evs, l, i, id);
    var t := Replay(s, env, evs);
    TracksFinds(t, l, i, id);
    var r := CancelMove(t);
    assert r.editor.annotations == t.editor.annotations[i := l[i]];
    assert r.editor.annotations[..|l|] == l;
  }

  /** Saving instead keeps whatever the events made of the list. */
  lemma MoveThenSaveKeeps(c: Canvas, env: Env, id: string, evs: seq<Event>)
    requires SaneSqrt(env)
    requires id != "" && HasId(c.editor.annotations, id)
    ensures var t := Replay(StartMove(c, id), env, evs);
      var r := SaveMove(t);
      r.editor == t.editor && r.move.movingId.None? && r.move.original.None?
  {
    var l := c.editor.annotations;
    ReplayKeepsTracking(StartMove(c, id), env, evs, l, FindIndex(l, id).value, id);
  }

  /** Dragging through the pointer positions `ps`, one move per position. */
  function Drags(c: Canvas, env: Env, ps: seq<Pointer>): Canvas
    requires SaneSqrt(env)
    decreases |ps|
  {
    if |ps| == 0 then c else Drags(MouseMove(c, env, ps[0]), env, ps[1..])
  }

  /** The state a whole-annotation drag of the entry at `i` is in. */
  predicate DraggingAt(c: Canvas, i: nat)
  {
    !c.move.draggingControlPoint && c.move.isDragging && c.move.offset.Some? &&
    Truthy(c.move.movingId) && FindIndex(c.editor.annotations, c.move.movingId.value) == Some(i)
  }

  /** Reshaping an entry in place keeps the first position of its id. */
  lemma FindIndexAfterReshape(l: seq<Annotation>, id: string, i: nat, a: Annotation)
    requires FindIndex(l, id) == Some(i) && a.id == id
    ensures FindIndex(l[i := a], id) == Some(i)
  {
    var m := l[i := a];
    forall j | 0 <= j < i
      ensures m[j].id != id
    {
      assert m[j] == l[j];
    }
    FindIndexFirst(m, id, i);
  }

  /** The drag state jumped straight to pointer `p`: entry `i` shifted by the travel, `p` remembered. */
  function DragTo(c: Canvas, i: nat, p: Pointer): (r: Canvas)
    requires i < |c.editor.annotations| && c.move.offset.Some?
  {
    var o := c.move.offset.value;
    var a := c.editor.annotations[i];
    c.(editor := c.editor.(annotations := c.editor.annotations[i := a.(params := Translate(a.params, p.image.x - o.x, p.image.y - o.y))]),
       move := c.move.(offset := Some(p.image)))
  }

  /**
   * During a handle drag a mouse-move reshapes the moving annotation by the
   * grabbed handle, and the handle stays grabbed.
   */
  lemma HandleDragStep(c: Canvas, env: Env, p: Pointer, i: nat)
    requires SaneSqrt(env)
    requires c.move.draggingControlPoint && c.move.activeControlPoint.Some? && c.move.dragInfo.Some?
    requires Truthy(c.move.movingId) && FindIndex(c.editor.annotations, c.move.movingId.value) == Some(i)
    ensures var r := MouseMove(c, env, p);
      r.move == c.move &&
      r.editor.annotations[i].params ==
        Drag(c.editor.annotations[i].params, c.move.dragInfo.value, p.image, c.move.ellipseRatio, env)
  {
  }

  /** During a whole-annotation drag a mouse-move is that jump, and the drag goes on. */
  lemma DragStep(c: Canvas, env: Env, p: Pointer, i: nat)
    requires SaneSqrt(env)
    requires DraggingAt(c, i)
    ensures MouseMove(c, env, p) == DragTo(c, i, p)
    ensures DraggingAt(DragTo(c, i, p), i)
  {
    var l := c.editor.annotations;
    var o := c.move.offset.value;
    var a := l[i].(params := Translate(l[i].params, p.image.x - o.x, p.image.y - o.y));
    FindIndexAfterReshape(l, c.move.movingId.value, i, a);
    assert Point(o.x + (p.image.x - o.x), o.y + (p.image.y - o.y)) == p.image;
  }

  /** Two jumps make one. */
  lemma DragToTwice(c: Canvas, i: nat, p: Pointer, e: Pointer)
    requires i < |c.editor.annotations| && c.move.offset.Some?
    ensures DragTo(DragTo(c, i, p), i, e) == DragTo(c, i, e)
  {
    var o := c.move.offset.value;
    var q := c.editor.annotations[i].params;
    TranslateCompose(q, p.image.x - o.x, p.image.y - o.y, e.image.x - p.image.x, e.image.y - p.image.y);
    assert (p.image.x - o.x) + (e.image.x - p.image.x) == e.image.x - o.x;
    assert (p.image.y - o.y) + (e.image.y - p.image.y) == e.image.y - o.y;
  }

  /**
   * Dragging the moving annotation through any non-empty run of pointer
   * positions ends exactly as one jump to the last of them: the annotation
   * is shifted by the pointer's total travel since it was grabbed, and
   * nothing else in the list changes.
   */
  lemma {:induction false} DragFollowsPointer(c: Canvas, env: Env, ps: seq<Pointer>, i: nat)
    requires SaneSqrt(env)
    requires DraggingAt(c, i)
    requires |ps| > 0
    ensures Drags(c, env, ps) == DragTo(c, i, ps[|ps| - 1])
    decreases |ps|
  {
    DragStep(c, env, ps[0], i);
    var c1 := DragTo(c, i, ps[0]);
    assert Drags(c, env, ps) == Drags(c1, env, ps[1..]);
    if |ps| > 1 {
      DragFollowsPointer(c1, env, ps[1..], i);
      assert ps[1..][|ps[1..]| - 1] == ps[|ps| - 1];
      DragToTwice(c, i, ps[0], ps[|ps| - 1]);
    }
  }
}

=== FILE: control_points.dfy ===
/**
 * Move-mode control points of the canvas editor: where each kind of shape
 * shows its handles, and how dragging a handle reshapes the shape.
 */
module ControlPoints {
  import opened Optional
  import opened Geometry
  import opened Shapes

  /** The `type` tag of a control point. */
  datatype Role = Endpoint | EdgeTop | EdgeRight | EdgeBottom | EdgeLeft | Scale | Corner | Vertex

  /** A control point in image coordinates; `index` is absent for circle and ellipse handles. */
  datatype ControlPoint = ControlPoint(pos: Point, role: Role, index: Option<nat>)

  /** What the editor remembers about the grabbed handle while it is dragged. */
  datatype DragInfo = DragInfo(role: Role, index: Option<nat>)

  /** The number of handles each kind shows. */
  function HandleCount(p: Params): nat
  {
    match p
    case MarkerParams(_, _) => 0
    case LineParams(_, _, _, _) => 2
    case CircleParams(_, _, _) => 4
    case EllipseParams(_, _, _, _) => 1
    case RectParams(_, _, _, _) => 4
    case SquareParams(_, _, _) => 4
    case PolygonParams(ps) => |ps|
    case FreehandParams(_) => 0
  }

  /** Corner `k` of the box at `(x, y)` of size `w` by `h`: top-left, top-right, bottom-right, bottom-left. */
  function BoxCorner(x: real, y: real, w: real, h: real, k: nat): Point
    requires k < 4
  {
    if k == 0 then Point(x, y)
    else if k == 1 then Point(x + w, y)
    else if k == 2 then Point(x + w, y + h)
    else Point(x, y + h)
  }

  function Corners(x: real, y: real, w: real, h: real): (cps: seq<ControlPoint>)
    ensures |cps| == 4
    ensures forall k :: 0 <= k < 4 ==> cps[k] == ControlPoint(BoxCorner(x, y, w, h, k), Corner, Some(k))
  {
    seq(4, k requires 0 <= k < 4 => ControlPoint(BoxCorner(x, y, w, h, k), Corner, Some(k)))
  }

  function Vertices(ps: seq<Point>): (cps: seq<ControlPoint>)
    ensures |cps| == |ps|
    ensures forall k :: 0 <= k < |ps| ==> cps[k] == ControlPoint(ps[k], Vertex, Some(k))
  {
    seq(|ps|, k requires 0 <= k < |ps| => ControlPoint(ps[k], Vertex, Some(k)))
  }

  /**
   * The handles of a shape: both line endpoints, four circle handles on the
   * circle, one ellipse handle at the corner of its bounding box, four box
   * corners for rect and square, one per polygon vertex, none for marker and
   * freehand.
   */
  function ControlPointsOf(p: Params): (cps: seq<ControlPoint>)
    ensures |cps| == HandleCount(p)
    ensures p.LineParams? ==>
      forall k :: 0 <= k < 2 ==> cps[k] == ControlPoint(Anchors(p)[k], Endpoint, Some(k))
    ensures p.CircleParams? ==>
      forall k :: 0 <= k < 4 ==> cps[k].index.None? && SqDist(cps[k].pos, Point(p.cx, p.cy)) == p.r * p.r
    ensures p.EllipseParams? ==> cps[0] == ControlPoint(Point(p.cx + p.rx, p.cy + p.ry), Scale, None)
    ensures p.RectParams? ==>
      forall k :: 0 <= k < 4 ==> cps[k] == ControlPoint(BoxCorner(p.x, p.y, p.width, p.height, k), Corner, Some(k))
    ensures p.SquareParams? ==>
      forall k :: 0 <= k < 4 ==> cps[k] == ControlPoint(BoxCorner(p.x, p.y, p.side, p.side, k), Corner, Some(k))
    ensures p.PolygonParams? ==>
      forall k :: 0 <= k < |p.points| ==> cps[k] == ControlPoint(p.points[k], Vertex, Some(k))
  {
    match p
    case MarkerParams(_, _) => []
    case LineParams(x1, y1, x2, y2) =>
      [ControlPoint(Point(x1, y1), Endpoint, Some(0)), ControlPoint(Point(x2, y2), Endpoint, Some(1))]
    case CircleParams(cx, cy, r) =>
      [ControlPoint(Point(cx, cy - r), EdgeTop, None),
       ControlPoint(Point(cx + r, cy), EdgeRight, None),
       ControlPoint(Point(cx, cy + r), EdgeBottom, None),
       ControlPoint(Point(cx - r, cy), EdgeLeft, None)]
    case EllipseParams(cx, cy, rx, ry) => [ControlPoint(Point(cx + rx, cy + ry), Scale, None)]
    case RectParams(x, y, w, h) => Corners(x, y, w, h)
    case SquareParams(x, y, side) => Corners(x, y, side, side)
    case PolygonParams(ps) => Vertices(ps)
    case FreehandParams(_) => []
  }

  /** Handles travel with the shape: moving a shape moves every handle by the same offset. */
  lemma ControlPointsFollowTranslate(p: Params, dx: real, dy: real)
    ensures var before, after := ControlPointsOf(p), ControlPointsOf(Translate(p, dx, dy));
      |after| == |before| &&
      forall k :: 0 <= k < |before| ==>
        after[k] == ControlPoint(Shift(before[k].pos, dx, dy), before[k].role, before[k].index)
  {
    var before, after := ControlPointsOf(p), ControlPointsOf(Translate(p, dx, dy));
    match p
    case CircleParams(_, _, _) =>
    case RectParams(_, _, _, _) =>
    case SquareParams(_, _, _) =>
    case PolygonParams(ps) =>
      assert Translate(p, dx, dy).points == ShiftAll(ps, dx, dy);
    case _ =>
  }

  // ---------------------------------------------------------------------
  // Dragging a handle

  /** The smallest width and height a rect or square may be dragged to. */
  const MinSize: real := 10.0

  /** The smallest radius a circle or ellipse may be dragged to. */
  const MinRadius: real := 5.0

  /** The corner diagonally across from corner `i`, i.e. `[2, 3, 0, 1][i]`. */
  function OppositeIndex(i: nat): nat
    requires i < 4
  {
    [2, 3, 0, 1][i]
  }

  /**
   * The fixed corner of a rect drag. An index outside 0..3 finds no entry
   * in the table and falls to the top-left corner.
   */
  function OppositeCorner(x: real, y: real, w: real, h: real, i: nat): Point
  {
    if i < 4 then BoxCorner(x, y, w, h, OppositeIndex(i)) else Point(x, y)
  }

  /** Dragging a rect corner: the box spanned by the dragged point and the opposite corner, if big enough. */
  function DragRect(p: Params, index: Option<nat>, pt: Point): (q: Params)
    requires p.RectParams?
    ensures q.RectParams?
    ensures index.None? ==> q == p
    ensures index.Some? ==>
      var o := OppositeCorner(p.x, p.y, p.width, p.height, index.value);
      if Abs(pt.x - o.x) >= MinSize && Abs(pt.y - o.y) >= MinSize then
        q.width == Abs(pt.x - o.x) && q.height == Abs(pt.y - o.y) &&
        q.x <= o.x <= q.x + q.width && q.x <= pt.x <= q.x + q.width &&
        q.y <= o.y <= q.y + q.height && q.y <= pt.y <= q.y + q.height
      else q == p
  {
    match index
    case None => p
    case Some(i) =>
      var o := OppositeCorner(p.x, p.y, p.width, p.height, i);
      var w := Abs(pt.x - o.x);
      var h := Abs(pt.y - o.y);
      if w >= MinSize && h >= MinSize then RectParams(Min(pt.x, o.x), Min(pt.y, o.y), w, h) else p
  }

  /** The corner number of `a` in the box it spans with `b`. */
  function CornerIndexIn(a: Point, b: Point): (k: nat)
    ensures k < 4
  {
    if a.x <= b.x && a.y <= b.y then 0
    else if b.x < a.x && a.y <= b.y then 1
    else if b.x < a.x then 2
    else 3
  }

  /**
   * After a rect corner drag that takes effect, the opposite corner is still
   * a corner of the rect, and the dragged point is the corner diagonally
   * across from it.
   */
  lemma RectDragKeepsOppositeCorner(p: Params, i: nat, pt: Point)
    requires p.RectParams? && i < 4
    requires var o := OppositeCorner(p.x, p.y, p.width, p.height, i);
      Abs(pt.x - o.x) >= MinSize && Abs(pt.y - o.y) >= MinSize
    ensures var q, o := DragRect(p, Some(i), pt), OppositeCorner(p.x, p.y, p.width, p.height, i);
      var k := CornerIndexIn(o, pt);
      BoxCorner(q.x, q.y, q.width, q.height, k) == o &&
      BoxCorner(q.x, q.y, q.width, q.height, OppositeIndex(k)) == pt
  {
  }

  /** Dragging corner 0 of a 100 by 100 rect at the origin to (20, 20) leaves an 80 by 80 rect. */
  lemma RectDragExample()
    ensures DragRect(RectParams(0.0, 0.0, 100.0, 100.0), Some(0), Point(20.0, 20.0)) == RectParams(20.0, 20.0, 80.0, 80.0)
    ensures DragRect(RectParams(0.0, 0.0, 100.0, 100.0), Some(0), Point(95.0, 95.0)) == RectParams(0.0, 0.0, 100.0, 100.0)
  {
  }

  /** The centre of a square. */
  function SquareCentre(p: Params): Point
    requires p.SquareParams?
  {
    Point(p.x + p.side / 2.0, p.y + p.side / 2.0)
  }

  /**
   * Dragging a square corner keeps the centre and makes the side twice the
   * larger axis offset of the dragged point from the centre, if that is big
   * enough.
   */
  function DragSquare(p: Params, index: Option<nat>, pt: Point): (q: Params)
    requires p.SquareParams?
    ensures q.SquareParams?
    ensures index.None? ==> q == p
    ensures index.Some? ==>
      var c := SquareCentre(p);
      var half := Max(Abs(pt.x - c.x), Abs(pt.y - c.y));
      if 2.0 * half >= MinSize then
        SquareCentre(q) == c && q.side == 2.0 * half
      else q == p
  {
    match index
    case None => p
    case Some(_) =>
      var c := SquareCentre(p);
      var half := Max(Abs(pt.x - c.x), Abs(pt.y - c.y));
      if half * 2.0 >= MinSize then SquareParams(c.x - half, c.y - half, half * 2.0) else p
  }

  /** After a square drag that takes effect, the dragged point lies on the square's outline. */
  lemma SquareDragOnOutline(p: Params, i: nat, pt: Point)
    requires p.SquareParams?
    requires var c := SquareCentre(p);
      2.0 * Max(Abs(pt.x - c.x), Abs(pt.y - c.y)) >= MinSize
    ensures var q := DragSquare(p, Some(i), pt);
      q.x <= pt.x <= q.x + q.side && q.y <= pt.y <= q.y + q.side &&
      (pt.x == q.x || pt.x == q.x + q.side || pt.y == q.y || pt.y == q.y + q.side)
  {
  }

  /** Dragging a polygon vertex replaces that vertex and nothing else. */
  function DragVertex(p: Params, index: Option<nat>, pt: Point): (q: Params)
    requires p.PolygonParams?
    ensures q.PolygonParams? && |q.points| == |p.points|
    ensures forall k :: 0 <= k < |p.points| ==>
      q.points[k] == (if index == Some(k) then pt else p.points[k])
  {
    match index
    case Some(i) => if i < |p.points| then PolygonParams(p.points[i := pt]) else p
    case None => p
  }

  /** Dragging a line endpoint moves that endpoint only. */
  function DragEndpoint(p: Params, index: Option<nat>, pt: Point): (q: Params)
    requires p.LineParams?
    ensures q.LineParams?
    ensures forall k :: 0 <= k < 2 ==>
      Anchors(q)[k] == (if index == Some(k) then pt else Anchors(p)[k])
  {
    if index == Some(0) then p.(x1 := pt.x, y1 := pt.y)
    else if index == Some(1) then p.(x2 := pt.x, y2 := pt.y)
    else p
  }

  /** Dragging a circle handle sets the radius to the pointer's distance from the centre, at least 5. */
  function DragCircle(p: Params, pt: Point, env: Env): (q: Params)
    requires p.CircleParams?
    ensures q.CircleParams? && q.cx == p.cx && q.cy == p.cy
    ensures q.r >= MinRadius
  {
    p.(r := Max(MinRadius, env.sqrt(SqDist(pt, Point(p.cx, p.cy)))))
  }

  /** A circle handle dragged at least 5 from the centre ends up on the circle. */
  lemma CircleDragFollowsPointer(p: Params, pt: Point, env: Env)
    requires SaneSqrt(env)
    requires p.CircleParams?
    requires SqDist(pt, Point(p.cx, p.cy)) >= MinRadius * MinRadius
    ensures var q := DragCircle(p, pt, env);
      SqDist(pt, Point(q.cx, q.cy)) == q.r * q.r
  {
    var d := SqDist(pt, Point(p.cx, p.cy));
    SqrtCompare(env, d, MinRadius);
  }

  /** The aspect ratio remembered when an ellipse handle is grabbed. */
  function EllipseRatio(p: Params): (ratio: real)
    requires p.EllipseParams?
    ensures p.ry > 0.0 ==> ratio * p.ry == p.rx
  {
    if p.ry > 0.0 then p.rx / p.ry else 1.0
  }

  /** Solver helper for real arithmetic. */
  lemma DivPositive(a: real, b: real)
    requires 0.0 < a && 0.0 < b
    ensures 0.0 < a / b
  {
  }

  /** Solver helper for real arithmetic. */
  lemma DivCancel(a: real, b: real)
    requires b != 0.0
    ensures b * (a / b) == a
  {
  }

  /**
   * Dragging the ellipse handle rescales both radii from the pointer's
   * distance to the centre, keeping the remembered aspect ratio; each radius
   * is at least 5. A ratio that is not positive leaves the ellipse alone.
   */
  function DragEllipse(p: Params, pt: Point, ratio: real, env: Env): (q: Params)
    requires SaneSqrt(env)
    requires p.EllipseParams?
    ensures q.EllipseParams? && q.cx == p.cx && q.cy == p.cy
    ensures ratio <= 0.0 ==> q == p
    ensures ratio > 0.0 ==> q.rx >= MinRadius && q.ry >= MinRadius
    ensures ratio > 0.0 && q.rx > MinRadius && q.ry > MinRadius ==> q.rx == ratio * q.ry
  {
    if ratio > 0.0 then
      MulPositive(ratio, ratio);
      DivPositive(1.0, ratio * ratio);
      var s := env.sqrt(1.0 + 1.0 / (ratio * ratio));
      assert s * s > 0.0;
      var newRx := env.sqrt(SqDist(pt, Point(p.cx, p.cy))) / s;
      var newRy := newRx / ratio;
      DivCancel(newRx, ratio);
      p.(rx := Max(MinRadius, newRx), ry := Max(MinRadius, newRy))
    else
      p
  }

  /** A handle drag on any shape; markers and freehand shapes have no handles and stay as they are. */
  function Drag(p: Params, info: DragInfo, pt: Point, ratio: real, env: Env): (q: Params)
    requires SaneSqrt(env)
    ensures q.Kind() == p.Kind()
  {
    match p
    case LineParams(_, _, _, _) => DragEndpoint(p, info.index, pt)
    case CircleParams(_, _, _) => DragCircle(p, pt, env)
    case EllipseParams(_, _, _, _) => DragEllipse(p, pt, ratio, env)
    case RectParams(_, _, _, _) => DragRect(p, info.index, pt)
    case SquareParams(_, _, _) => DragSquare(p, info.index, pt)
    case PolygonParams(_) => DragVertex(p, info.index, pt)
    case _ => p
  }
}

=== FILE: drawing.dfy ===
/**
 * The drawing state machine both editors run while a shape kind is chosen:
 * per-kind press, move and release handlers, the `finish*Draw` commits,
 * `setDrawType` and `cancelDraw`. The SVG and canvas editors implement it
 * with the same code; they differ only in how previews are painted.
 *
 * Points handed to a step are image coordinates (the editor converts the
 * mouse position before dispatching). A step returns the new state and the
 * annotation it committed, if any; the editor appends that annotation to its
 * list.
 */
module Drawing {
  import opened Optional
  import opened Geometry
  import opened Shapes
  import opened Ids

  /** A press within this many screen pixels of the first vertex closes a polygon. */
  const CloseDistance: real := 15.0

  /** The half-drawn shape: one group of fields per kind. */
  datatype Buffers = Buffers(
    markerPosition: Option<Point>,
    lineStart: Option<Point>,
    lineEnd: Option<Point>,
    circleCenter: Option<Point>,
    circleRadius: Option<real>,
    ellipseCenter: Option<Point>,
    ellipseRadiusX: Option<real>,
    ellipseRadiusY: Option<real>,
    rectStart: Option<Point>,
    rectWidth: Option<real>,
    rectHeight: Option<real>,
    squareStart: Option<Point>,
    polygonPoints: seq<Point>,
    freehandPoints: seq<Point>)

  const NoBuffers: Buffers := Buffers(None, None, None, None, None, None, None, None, None, None, None, None, [], [])

  datatype DrawState = DrawState(
    currentType: Option<AnnotationType>,
    drawing: bool,
    nextId: nat,
    color: string,
    squareSize: real,
    allowMulti: bool,
    buf: Buffers)

  /** A freshly initialised editor: red, ids from 1, 256-pixel squares, no kind chosen. */
  function Initial(allowMulti: bool): (s: DrawState)
    ensures s.currentType.None? && !s.drawing && s.nextId == 1 && AllIdle(s.buf)
  {
    DrawState(None, false, 1, "#ff0000", 256.0, allowMulti, NoBuffers)
  }

  /** The outcome of one step: the next state and the annotation committed, if any. */
  datatype Step = Step(state: DrawState, committed: Option<Annotation>)

  // ---------------------------------------------------------------------
  // Buffers, grouped by kind

  /**
   * The buffer fields one kind uses: up to two optional points, up to two
   * optional sizes, and a point list; unused positions are empty.
   */
  datatype Slot = Slot(
    first: Option<Point>, second: Option<Point>,
    size1: Option<real>, size2: Option<real>,
    trail: seq<Point>)

  function SlotOf(b: Buffers, t: AnnotationType): Slot
  {
    match t
    case Marker => Slot(b.markerPosition, None, None, None, [])
    case Line => Slot(b.lineStart, b.lineEnd, None, None, [])
    case Circle => Slot(b.circleCenter, None, b.circleRadius, None, [])
    case Ellipse => Slot(b.ellipseCenter, None, b.ellipseRadiusX, b.ellipseRadiusY, [])
    case Rect => Slot(b.rectStart, None, b.rectWidth, b.rectHeight, [])
    case Square => Slot(b.squareStart, None, None, None, [])
    case Polygon => Slot(None, None, None, None, b.polygonPoints)
    case Freehand => Slot(None, None, None, None, b.freehandPoints)
  }

  const EmptySlot: Slot := Slot(None, None, None, None, [])

  /** Nothing of kind `t` is half-drawn. */
  predicate Idle(b: Buffers, t: AnnotationType)
  {
    SlotOf(b, t) == EmptySlot
  }

  predicate AllIdle(b: Buffers)
  {
    forall t :: Idle(b, t)
  }

  /** Every buffer field belongs to exactly one kind, so the slots determine the buffers. */
  lemma SlotsDetermineBuffers(b: Buffers, c: Buffers)
    requires forall t :: SlotOf(b, t) == SlotOf(c, t)
    ensures b == c
  {
    assert SlotOf(b, Marker) == SlotOf(c, Marker);
    assert SlotOf(b, Line) == SlotOf(c, Line);
    assert SlotOf(b, Circle) == SlotOf(c, Circle);
    assert SlotOf(b, Ellipse) == SlotOf(c, Ellipse);
    assert SlotOf(b, Rect) == SlotOf(c, Rect);
    assert SlotOf(b, Square) == SlotOf(c, Square);
    assert SlotOf(b, Polygon) == SlotOf(c, Polygon);
    assert SlotOf(b, Freehand) == SlotOf(c, Freehand);
  }

  /** The empty buffers are the only ones with nothing half-drawn. */
  lemma AllIdleIsEmpty(b: Buffers)
    ensures AllIdle(b) <==> b == NoBuffers
  {
    if AllIdle(b) {
      forall t
        ensures SlotOf(b, t) == SlotOf(NoBuffers, t)
      {
        assert Idle(b, t);
      }
      SlotsDetermineBuffers(b, NoBuffers);
    }
  }

  /** The sizes a drag produces are absolute offsets, never negative. */
  predicate Valid(s: DrawState)
  {
    (s.buf.rectWidth.Some? ==> s.buf.rectWidth.value >= 0.0) &&
    (s.buf.rectHeight.Some? ==> s.buf.rectHeight.value >= 0.0) &&
    (s.buf.ellipseRadiusX.Some? ==> s.buf.ellipseRadiusX.value >= 0.0) &&
    (s.buf.ellipseRadiusY.Some? ==> s.buf.ellipseRadiusY.value >= 0.0)
  }

  // ---------------------------------------------------------------------
  // Choosing and cancelling

  /**
   * `setDrawType`: the chosen kind becomes current, drawing stops, and only
   * that kind's buffers are emptied; choosing squares also sets their size.
   */
  function SetDrawType(s: DrawState, t: AnnotationType, size: real): (r: DrawState)
    ensures r.currentType == Some(t) && !r.drawing
    ensures Idle(r.buf, t)
    ensures forall u :: u != t ==> SlotOf(r.buf, u) == SlotOf(s.buf, u)
    ensures r.squareSize == (if t == Square then size else s.squareSize)
    ensures r.nextId == s.nextId && r.color == s.color && r.allowMulti == s.allowMulti
    ensures Valid(s) ==> Valid(r)
  {
    var b := s.buf;
    var b' :=
      match t
      case Marker => b.(markerPosition := None)
      case Line => b.(lineStart := None, lineEnd := None)
      case Circle => b.(circleCenter := None, circleRadius := None)
      case Ellipse => b.(ellipseCenter := None, ellipseRadiusX := None, ellipseRadiusY := None)
      case Rect => b.(rectStart := None, rectWidth := None, rectHeight := None)
      case Square => b.(squareStart := None)
      case Polygon => b.(polygonPoints := [])
      case Freehand => b.(freehandPoints := []);
    s.(currentType := Some(t), drawing := false, squareSize := if t == Square then size else s.squareSize, buf := b')
  }

  /** Choosing the same kind and size twice is choosing it once. */
  lemma SetDrawTypeIdempotent(s: DrawState, t: AnnotationType, size: real)
    ensures SetDrawType(SetDrawType(s, t, size), t, size) == SetDrawType(s, t, size)
  {
    var r1 := SetDrawType(s, t, size);
    var r2 := SetDrawType(r1, t, size);
    forall u
      ensures SlotOf(r2.buf, u) == SlotOf(r1.buf, u)
    {
    }
    SlotsDetermineBuffers(r2.buf, r1.buf);
  }

  /** `cancelDraw`: no kind chosen, not drawing, every buffer empty; the id counter and settings stay. */
  function CancelDraw(s: DrawState): (r: DrawState)
    ensures r.currentType.None? && !r.drawing && AllIdle(r.buf)
    ensures r.nextId == s.nextId && r.color == s.color && r.squareSize == s.squareSize && r.allowMulti == s.allowMulti
    ensures Valid(r)
  {
    s.(currentType := None, drawing := false, buf := NoBuffers)
  }

  // ---------------------------------------------------------------------
  // Committing

  /**
   * Commit a finished shape under the id `String(nextId++)`, with the
   * current colour and empty info. Unless several shapes may be drawn in a
   * row, drawing mode ends.
   */
  function Commit(s: DrawState, p: Params): (r: Step)
    ensures r.committed == Some(Annotation(IdOf(s.nextId), s.color, "", p, false))
    ensures r.state.nextId == s.nextId + 1
    ensures r.state.color == s.color && r.state.squareSize == s.squareSize && r.state.allowMulti == s.allowMulti
    ensures s.allowMulti ==> r.state.currentType == s.currentType && r.state.drawing == s.drawing && r.state.buf == s.buf
    ensures !s.allowMulti ==> r.state.currentType.None? && !r.state.drawing && AllIdle(r.state.buf)
  {
    var s1 := s.(nextId := s.nextId + 1);
    Step(if s.allowMulti then s1 else CancelDraw(s1), Some(Annotation(IdOf(s.nextId), s.color, "", p, false)))
  }

  /**
   * What every step promises: the settings stay, and the id counter moves
   * exactly when something is committed, which then carries the next id,
   * the current colour and the current kind; without a commit the kind
   * stays chosen, and after one the `allowMulti` rule decides.
   */
  predicate Disciplined(s: DrawState, r: Step)
  {
    r.state.color == s.color && r.state.squareSize == s.squareSize && r.state.allowMulti == s.allowMulti &&
    (r.committed.None? ==> r.state.nextId == s.nextId && r.state.currentType == s.currentType) &&
    (r.committed.Some? ==>
      var a := r.committed.value;
      r.state.nextId == s.nextId + 1 &&
      a == Annotation(IdOf(s.nextId), s.color, "", a.params, false) &&
      s.currentType == Some(a.params.Kind()) &&
      (if s.allowMulti then r.state.currentType == s.currentType
       else r.state.currentType.None? && !r.state.drawing && AllIdle(r.state.buf)))
  }

  function FinishLine(s: DrawState): (r: Step)
    requires s.currentType == Some(Line)
    ensures Disciplined(s, r)
    ensures r.state.drawing ==> s.drawing
    ensures r.committed.Some? <==> s.buf.lineStart.Some? && s.buf.lineEnd.Some?
    ensures r.committed.Some? ==>
      r.committed.value.params ==
        LineParams(s.buf.lineStart.value.x, s.buf.lineStart.value.y, s.buf.lineEnd.value.x, s.buf.lineEnd.value.y)
    ensures Valid(s) ==> Valid(r.state)
  {
    match (s.buf.lineStart, s.buf.lineEnd)
    case (Some(a), Some(b)) =>
      var st := Commit(s, LineParams(a.x, a.y, b.x, b.y));
      Step(st.state.(buf := st.state.buf.(lineStart := None, lineEnd := None)), st.committed)
    case _ => Step(s, None)
  }

  function FinishCircle(s: DrawState): (r: Step)
    requires s.currentType == Some(Circle)
    ensures Disciplined(s, r)
    ensures r.state.drawing ==> s.drawing
    ensures r.committed.Some? <==> s.buf.circleCenter.Some? && s.buf.circleRadius.Some?
    ensures r.committed.Some? ==>
      r.committed.value.params ==
        CircleParams(s.buf.circleCenter.value.x, s.buf.circleCenter.value.y, s.buf.circleRadius.value)
    ensures Valid(s) ==> Valid(r.state)
  {
    match (s.buf.circleCenter, s.buf.circleRadius)
    case (Some(c), Some(radius)) =>
      var st := Commit(s, CircleParams(c.x, c.y, radius));
      Step(st.state.(buf := st.state.buf.(circleCenter := None, circleRadius := None)), st.committed)
    case _ => Step(s, None)
  }

  function FinishEllipse(s: DrawState): (r: Step)
    requires s.currentType == Some(Ellipse)
    ensures Disciplined(s, r)
    ensures r.state.drawing ==> s.drawing
    ensures r.committed.Some? <==>
      s.buf.ellipseCenter.Some? && s.buf.ellipseRadiusX.Some? && s.buf.ellipseRadiusY.Some?
    ensures r.committed.Some? ==>
      r.committed.value.params ==
        EllipseParams(s.buf.ellipseCenter.value.x, s.buf.ellipseCenter.value.y,
                      s.buf.ellipseRadiusX.value, s.buf.ellipseRadiusY.value)
    ensures Valid(s) ==> Valid(r.state)
  {
    match (s.buf.ellipseCenter, s.buf.ellipseRadiusX, s.buf.ellipseRadiusY)
    case (Some(c), Some(rx), Some(ry)) =>
      var st := Commit(s, EllipseParams(c.x, c.y, rx, ry));
      Step(st.state.(buf := st.state.buf.(ellipseCenter := None, ellipseRadiusX := None, ellipseRadiusY := None)),
           st.committed)
    case _ => Step(s, None)
  }

  /**
   * The committed origin is written as `min(start, start + size)`; since
   * the sizes are absolute offsets, that is always the press point.
   */
  function FinishRect(s: DrawState): (r: Step)
    requires s.currentType == Some(Rect)
    ensures Disciplined(s, r)
    ensures r.state.drawing ==> s.drawing
    ensures r.committed.Some? <==>
      s.buf.rectStart.Some? && s.buf.rectWidth.Some? && s.buf.rectHeight.Some?
    ensures Valid(s) && r.committed.Some? ==>
      r.committed.value.params ==
        RectParams(s.buf.rectStart.value.x, s.buf.rectStart.value.y, s.buf.rectWidth.value, s.buf.rectHeight.value)
    ensures Valid(s) ==> Valid(r.state)
  {
    match (s.buf.rectStart, s.buf.rectWidth, s.buf.rectHeight)
    case (Some(st0), Some(w), Some(h)) =>
      var st := Commit(s, RectParams(Min(st0.x, st0.x + w), Min(st0.y, st0.y + h), w, h));
      Step(st.state.(buf := st.state.buf.(rectStart := None, rectWidth := None, rectHeight := None)), st.committed)
    case _ => Step(s, None)
  }

  function FinishSquare(s: DrawState): (r: Step)
    requires s.currentType == Some(Square)
    ensures Disciplined(s, r)
    ensures r.state.drawing ==> s.drawing
    ensures r.committed.Some? <==> s.buf.squareStart.Some?
    ensures r.committed.Some? ==>
      r.committed.value.params == SquareParams(s.buf.squareStart.value.x, s.buf.squareStart.value.y, s.squareSize)
    ensures Valid(s) ==> Valid(r.state)
  {
    match s.buf.squareStart
    case Some(a) =>
      var st := Commit(s, SquareParams(a.x, a.y, s.squareSize));
      Step(st.state.(buf := st.state.buf.(squareStart := None)), st.committed)
    case None => Step(s, None)
  }

  /** A polygon needs at least three vertices; with fewer nothing happens. */
  function FinishPolygon(s: DrawState): (r: Step)
    requires s.currentType == Some(Polygon)
    ensures Disciplined(s, r)
    ensures r.committed.Some? <==> |s.buf.polygonPoints| >= 3
    ensures r.committed.Some? ==>
      r.committed.value.params == PolygonParams(s.buf.polygonPoints) && r.state.buf.polygonPoints == []
    ensures r.committed.None? ==> r.state == s
    ensures Valid(s) ==> Valid(r.state)
  {
    if |s.buf.polygonPoints| < 3 then Step(s, None)
    else
      var st := Commit(s, PolygonParams(s.buf.polygonPoints));
      Step(st.state.(buf := st.state.buf.(polygonPoints := [])), st.committed)
  }

  /** A freehand stroke needs at least two samples; with fewer nothing is committed and the samples stay. */
  function FinishFreehand(s: DrawState): (r: Step)
    requires s.currentType == Some(Freehand)
    ensures Disciplined(s, r)
    ensures r.state.drawing ==> s.drawing
    ensures r.committed.Some? <==> |s.buf.freehandPoints| >= 2
    ensures r.committed.Some? ==>
      r.committed.value.params == FreehandParams(s.buf.freehandPoints) && r.state.buf.freehandPoints == []
    ensures r.committed.None? ==> r.state == s
    ensures Valid(s) ==> Valid(r.state)
  {
    if |s.buf.freehandPoints| < 2 then Step(s, None)
    else
      var st := Commit(s, FreehandParams(s.buf.freehandPoints));
      Step(st.state.(buf := st.state.buf.(freehandPoints := [])), st.committed)
  }

  // ---------------------------------------------------------------------
  // Pointer events

  /**
   * A press near the first vertex (in screen space) of a polygon with at
   * least three vertices closes it; any other press adds a vertex, and the
   * first vertex starts drawing.
   */
  function PressPolygon(s: DrawState, env: Env, pt: Point): (r: Step)
    requires s.currentType == Some(Polygon)
    ensures Disciplined(s, r)
    ensures var ps := s.buf.polygonPoints;
      r.committed.Some? <==>
        |ps| >= 3 && SqDist(env.toScreen(pt), env.toScreen(ps[0])) < CloseDistance * CloseDistance
    ensures r.committed.None? ==>
      r.state == s.(drawing := s.drawing || s.buf.polygonPoints == [],
                    buf := s.buf.(polygonPoints := s.buf.polygonPoints + [pt]))
    ensures Valid(s) ==> Valid(r.state)
  {
    var ps := s.buf.polygonPoints;
    if |ps| >= 3 && SqDist(env.toScreen(pt), env.toScreen(ps[0])) < CloseDistance * CloseDistance then
      FinishPolygon(s)
    else
      Step(s.(drawing := if |ps| == 0 then true else s.drawing, buf := s.buf.(polygonPoints := ps + [pt])), None)
  }

  /** Mouse-down. The marker is placed and committed by the press alone. */
  function Press(s: DrawState, env: Env, pt: Point): (r: Step)
    ensures Disciplined(s, r)
    ensures Valid(s) ==> Valid(r.state)
    ensures s.currentType.None? ==> r == Step(s, None)
  {
    match s.currentType
    case None => Step(s, None)
    case Some(t) =>
      match t
      case Marker =>
        var st := Commit(s.(buf := s.buf.(markerPosition := Some(pt))), MarkerParams(pt.x, pt.y));
        Step(st.state.(buf := st.state.buf.(markerPosition := None)), st.committed)
      case Line => Step(s.(drawing := true, buf := s.buf.(lineStart := Some(pt), lineEnd := Some(pt))), None)
      case Circle => Step(s.(drawing := true, buf := s.buf.(circleCenter := Some(pt), circleRadius := Some(0.0))), None)
      case Ellipse => Step(s.(drawing := true, buf := s.buf.(ellipseCenter := Some(pt))), None)
      case Rect =>
        Step(s.(drawing := true, buf := s.buf.(rectStart := Some(pt), rectWidth := Some(0.0), rectHeight := Some(0.0))), None)
      case Square => Step(s.(drawing := true, buf := s.buf.(squareStart := Some(pt))), None)
      case Polygon => PressPolygon(s, env, pt)
      case Freehand => Step(s.(drawing := true, buf := s.buf.(freehandPoints := [pt])), None)
  }

  /** Mouse-move. It never commits; only a drag in progress changes the buffers. */
  function Move(s: DrawState, env: Env, pt: Point): (r: DrawState)
    ensures r.currentType == s.currentType && r.drawing == s.drawing && r.nextId == s.nextId
    ensures r.color == s.color && r.squareSize == s.squareSize && r.allowMulti == s.allowMulti
    ensures !s.drawing ==> r == s
    ensures Valid(s) ==> Valid(r)
  {
    if !s.drawing then s
    else
      match s.currentType
      case Some(Line) => s.(buf := s.buf.(lineEnd := Some(pt)))
      case Some(Circle) =>
        if s.buf.circleCenter.Some? then
          s.(buf := s.buf.(circleRadius := Some(env.sqrt(SqDist(pt, s.buf.circleCenter.value)))))
        else s
      case Some(Ellipse) =>
        if s.buf.ellipseCenter.Some? then
          var c := s.buf.ellipseCenter.value;
          s.(buf := s.buf.(ellipseRadiusX := Some(Abs(pt.x - c.x)), ellipseRadiusY := Some(Abs(pt.y - c.y))))
        else s
      case Some(Rect) =>
        if s.buf.rectStart.Some? then
          var a := s.buf.rectStart.value;
          s.(buf := s.buf.(rectWidth := Some(Abs(pt.x - a.x)), rectHeight := Some(Abs(pt.y - a.y))))
        else s
      case Some(Freehand) => s.(buf := s.buf.(freehandPoints := s.buf.freehandPoints + [pt]))
      case _ => s
  }

  /**
   * Mouse-up. It ends a drag and commits what the drag drew; markers and
   * polygons ignore it, since the press completes a marker and a polygon is
   * closed by a press or a double-click.
   */
  function Release(s: DrawState, pt: Point): (r: Step)
    ensures Disciplined(s, r)
    ensures Valid(s) ==> Valid(r.state)
    ensures !s.drawing ==> r == Step(s, None)
    ensures s.currentType.None? || s.currentType == Some(Marker) || s.currentType == Some(Polygon) ==>
      r == Step(s, None)
    ensures s.currentType.Some? && s.currentType != Some(Marker) && s.currentType != Some(Polygon) ==>
      !r.state.drawing
    ensures r.committed.Some? ==> s.drawing
  {
    if !s.drawing then Step(s, None)
    else
      var s' := s.(drawing := false);
      match s.currentType
      case Some(Line) => FinishLine(s')
      case Some(Circle) => FinishCircle(s')
      case Some(Ellipse) => FinishEllipse(s')
      case Some(Rect) => FinishRect(s')
      case Some(Square) => FinishSquare(s')
      case Some(Freehand) => FinishFreehand(s')
      case _ => Step(s, None)
  }

  /** Double-click (canvas editor): finishes a polygon being drawn. */
  function DoubleClick(s: DrawState): (r: Step)
    ensures Disciplined(s, r)
    ensures Valid(s) ==> Valid(r.state)
    ensures r.committed.Some? <==>
      s.currentType == Some(Polygon) && s.drawing && |s.buf.polygonPoints| >= 3
  {
    if s.currentType == Some(Polygon) && s.drawing then FinishPolygon(s) else Step(s, None)
  }

  /** Escape (canvas editor): cancels drawing, but only while a shape is being drawn. */
  function Escape(s: DrawState): (r: DrawState)
    ensures s.drawing ==> r.currentType.None? && !r.drawing && AllIdle(r.buf)
    ensures !s.drawing ==> r == s
    ensures r.nextId == s.nextId && r.color == s.color && r.squareSize == s.squareSize && r.allowMulti == s.allowMulti
  {
    if s.drawing then CancelDraw(s) else s
  }

  // ---------------------------------------------------------------------
  // Whole gestures

  /** A marker is committed by one press, at the press point. */
  lemma MarkerGesture(s: DrawState, env: Env, a: Point)
    requires s.currentType == Some(Marker)
    ensures Press(s, env, a).committed.Some?
    ensures Press(s, env, a).committed.value.params == MarkerParams(a.x, a.y)
    ensures Press(s, env, a).state.buf.markerPosition.None?
  {
  }

  /** Press at `a`, drag to `b`, release anywhere: a line from `a` to `b`. */
  lemma LineGesture(s: DrawState, env: Env, a: Point, b: Point, c: Point)
    requires s.currentType == Some(Line)
    ensures var r1 := Press(s, env, a);
      var r3 := Release(Move(r1.state, env, b), c);
      r1.committed.None? && r3.committed.Some? && r3.committed.value.params == LineParams(a.x, a.y, b.x, b.y)
  {
  }

  /** A press and a release without a drag commit a circle of radius 0. */
  lemma CircleClick(s: DrawState, env: Env, a: Point, c: Point)
    requires s.currentType == Some(Circle)
    ensures var r := Release(Press(s, env, a).state, c);
      r.committed.Some? && r.committed.value.params == CircleParams(a.x, a.y, 0.0)
  {
  }

  /**
   * Press at `a`, drag to `b`, release: a circle centred at the press point
   * whose radius is the distance to `b` as `Math.sqrt` computes it.
   */
  lemma CircleGesture(s: DrawState, env: Env, a: Point, b: Point, c: Point)
    requires s.currentType == Some(Circle)
    ensures var r := Release(Move(Press(s, env, a).state, env, b), c);
      r.committed.Some? && r.committed.value.params == CircleParams(a.x, a.y, env.sqrt(SqDist(b, a)))
  {
  }

  /**
   * Press at `a`, drag to `b`, release: a rect whose origin is the press
   * point and whose sizes are the absolute offsets, whichever way the drag went.
   */
  lemma RectGesture(s: DrawState, env: Env, a: Point, b: Point, c: Point)
    requires s.currentType == Some(Rect)
    ensures var r := Release(Move(Press(s, env, a).state, env, b), c);
      r.committed.Some? && r.committed.value.params == RectParams(a.x, a.y, Abs(b.x - a.x), Abs(b.y - a.y))
  {
  }

  /**
   * The press does not reset the ellipse radii, so with no radii pending a
   * click without a drag commits nothing; a drag to `b` commits the
   * absolute offsets as radii.
   */
  lemma EllipseGesture(s: DrawState, env: Env, a: Point, b: Point, c: Point)
    requires s.currentType == Some(Ellipse)
    ensures s.buf.ellipseRadiusX.None? ==> Release(Press(s, env, a).state, c).committed.None?
    ensures var r := Release(Move(Press(s, env, a).state, env, b), c);
      r.committed.Some? && r.committed.value.params == EllipseParams(a.x, a.y, Abs(b.x - a.x), Abs(b.y - a.y))
  {
  }

  /** A square is placed at the press point with the configured size. */
  lemma SquareGesture(s: DrawState, env: Env, a: Point, c: Point)
    requires s.currentType == Some(Square)
    ensures var r := Release(Press(s, env, a).state, c);
      r.committed.Some? && r.committed.value.params == SquareParams(a.x, a.y, s.squareSize)
  {
  }

  /** Apply the moves `pts` one after another. */
  function Moves(s: DrawState, env: Env, pts: seq<Point>): DrawState
    decreases |pts|
  {
    if |pts| == 0 then s else Moves(Move(s, env, pts[0]), env, pts[1..])
  }

  /** While a freehand stroke is drawn, every move appends one sample. */
  lemma {:induction false} FreehandMovesAppend(s: DrawState, env: Env, pts: seq<Point>)
    requires s.currentType == Some(Freehand) && s.drawing
    ensures var r := Moves(s, env, pts);
      r.currentType == s.currentType && r.drawing && r.nextId == s.nextId &&
      r.buf == s.buf.(freehandPoints := s.buf.freehandPoints + pts)
    decreases |pts|
  {
    if |pts| > 0 {
      var s1 := Move(s, env, pts[0]);
      FreehandMovesAppend(s1, env, pts[1..]);
      assert s.buf.freehandPoints + [pts[0]] + pts[1..] == s.buf.freehandPoints + pts;
    }
  }

  /**
   * Press at `a`, move through `pts`, release: the stroke `[a] + pts` is
   * committed exactly when there was at least one move.
   */
  lemma FreehandGesture(s: DrawState, env: Env, a: Point, pts: seq<Point>, c: Point)
    requires s.currentType == Some(Freehand)
    ensures var r := Release(Moves(Press(s, env, a).state, env, pts), c);
      (r.committed.Some? <==> |pts| >= 1) &&
      (r.committed.Some? ==> r.committed.value.params == FreehandParams([a] + pts))
  {
    FreehandMovesAppend(Press(s, env, a).state, env, pts);
  }

  // ---------------------------------------------------------------------
  // Runs of inputs and the ids they commit

  /** An input to the drawing machine. */
  datatype Input =
    | PressAt(pt: Point)
    | MoveTo(pt: Point)
    | ReleaseAt(pt: Point)
    | DoubleClickAt
    | EscapeKey
    | ChooseType(t: AnnotationType, size: real)
    | Cancel

  function Apply(s: DrawState, env: Env, i: Input): (r: Step)
    ensures r.committed.None? ==> r.state.nextId == s.nextId
    ensures r.committed.Some? ==> r.state.nextId == s.nextId + 1 && r.committed.value.id == IdOf(s.nextId)
  {
    match i
    case PressAt(pt) => Press(s, env, pt)
    case MoveTo(pt) => Step(Move(s, env, pt), None)
    case ReleaseAt(pt) => Release(s, pt)
    case DoubleClickAt => DoubleClick(s)
    case EscapeKey => Step(Escape(s), None)
    case ChooseType(t, size) => Step(SetDrawType(s, t, size), None)
    case Cancel => Step(CancelDraw(s), None)
  }

  function Committed(st: Step): seq<Annotation>
  {
    match st.committed
    case Some(a) => [a]
    case None => []
  }

  /** The final state after `ins` and the annotations committed on the way, in order. */
  function Run(s: DrawState, env: Env, ins: seq<Input>): (DrawState, seq<Annotation>)
    decreases |ins|
  {
    if |ins| == 0 then (s, [])
    else
      var st := Apply(s, env, ins[0]);
      var rest := Run(st.state, env, ins[1..]);
      (rest.0, Committed(st) + rest.1)
  }

  /** The k-th commit of a run takes the k-th id after the starting counter. */
  lemma {:induction false} RunIds(s: DrawState, env: Env, ins: seq<Input>)
    ensures var (f, cs) := Run(s, env, ins);
      f.nextId == s.nextId + |cs| &&
      forall k :: 0 <= k < |cs| ==> cs[k].id == IdOf(s.nextId + k)
    decreases |ins|
  {
    if |ins| > 0 {
      var st := Apply(s, env, ins[0]);
      var rest := Run(st.state, env, ins[1..]);
      RunIds(st.state, env, ins[1..]);
      var cs := Committed(st) + rest.1;
      assert Run(s, env, ins) == (rest.0, cs);
      forall k | 0 <= k < |cs|
        ensures cs[k].id == IdOf(s.nextId + k)
      {
        if st.committed.Some? && k > 0 {
          assert cs[k] == rest.1[k - 1];
        } else if st.committed.None? {
          assert cs[k] == rest.1[k];
        }
      }
    }
  }

  /** Annotations numbered consecutively from `base` carry distinct, increasing ids. */
  lemma ConsecutiveIdsIncrease(cs: seq<Annotation>, base: nat, i: nat, j: nat)
    requires forall k :: 0 <= k < |cs| ==> cs[k].id == IdOf(base + k)
    requires i < j < |cs|
    ensures cs[i].id != cs[j].id
    ensures cs[i].id == IdOf(base + i) && cs[j].id == IdOf(base + j)
    ensures DecimalValue(cs[i].id) < DecimalValue(cs[j].id)
  {
    IdOfInjective(base + i, base + j);
    DecimalRoundTrip(base + i);
    DecimalRoundTrip(base + j);
  }

  /** Ids committed in one run are pairwise distinct and increase in commit order. */
  lemma RunIdsIncrease(s: DrawState, env: Env, ins: seq<Input>, i: nat, j: nat)
    requires i < j < |Run(s, env, ins).1|
    ensures var cs := Run(s, env, ins).1;
      cs[i].id != cs[j].id &&
      cs[i].id == IdOf(s.nextId + i) && cs[j].id == IdOf(s.nextId + j) &&
      DecimalValue(cs[i].id) < DecimalValue(cs[j].id)
  {
    RunIds(s, env, ins);
    ConsecutiveIdsIncrease(Run(s, env, ins).1, s.nextId, i, j);
  }
}

=== FILE: geometry.dfy ===
/**
 * Points, squared distances, and the two foreign collaborators the editors
 * call: OpenSeadragon's image-to-screen mapping and `Math.sqrt`.
 */
module Geometry {

  datatype Point = Point(x: real, y: real)

  function Shift(p: Point, dx: real, dy: real): Point
  {
    Point(p.x + dx, p.y + dy)
  }

  function Abs(v: real): real
  {
    if v < 0.0 then -v else v
  }

  function Min(a: real, b: real): real
  {
    if a <= b then a else b
  }

  function Max(a: real, b: real): real
  {
    if a >= b then a else b
  }

  /** Solver helper for real arithmetic. */
  lemma MulPositive(a: real, b: real)
    requires 0.0 < a && 0.0 < b
    ensures 0.0 < a * b
  {
  }

  /** Solver helper for real arithmetic. */
  lemma DiffSquares(a: real, b: real)
    ensures (b - a) * (b + a) == b * b - a * a
  {
  }

  /** Solver helper for real arithmetic. */
  lemma SquareStrict(a: real, b: real)
    requires 0.0 <= a && a < b
    ensures a * a < b * b
  {
    MulPositive(b - a, b + a);
    DiffSquares(a, b);
  }

  /** Squared Euclidean distance. */
  function SqDist(a: Point, b: Point): (d: real)
    ensures d >= 0.0
    ensures a == b ==> d == 0.0
  {
    (a.x - b.x) * (a.x - b.x) + (a.y - b.y) * (a.y - b.y)
  }

  /** Moving both points by the same offset keeps their distance. */
  lemma SqDistShift(a: Point, b: Point, dx: real, dy: real)
    ensures SqDist(Shift(a, dx, dy), Shift(b, dx, dy)) == SqDist(a, b)
  {
  }

  lemma SqDistSym(a: Point, b: Point)
    ensures SqDist(a, b) == SqDist(b, a)
  {
  }

  /**
   * The collaborators the editors cannot do without but do not own:
   * `toScreen` is OpenSeadragon's `imageToViewerElementCoordinates` at the
   * current pan and zoom, and `sqrt` is `Math.sqrt`.
   */
  datatype Env = Env(toScreen: Point -> Point, sqrt: real -> real)

  /** `Math.sqrt` returns the non-negative square root of a non-negative argument. */
  ghost predicate SaneSqrt(env: Env)
  {
    forall q :: 0.0 <= q ==> 0.0 <= env.sqrt(q) && env.sqrt(q) * env.sqrt(q) == q
  }

  /** Solver helper for real arithmetic. */
  lemma SquareMonotone(a: real, b: real)
    requires 0.0 <= a && 0.0 <= b
    ensures a < b <==> a * a < b * b
    ensures a <= b <==> a * a <= b * b
  {
    if a < b {
      SquareStrict(a, b);
    } else if b < a {
      SquareStrict(b, a);
    }
  }

  /**
   * The editors compare `Math.sqrt(dx * dx + dy * dy)` against a pixel
   * tolerance; the model compares the squared distance against the squared
   * tolerance. The two agree whenever `Math.sqrt` is a square root.
   */
  lemma SqrtCompare(env: Env, q: real, t: real)
    requires SaneSqrt(env)
    requires 0.0 <= q && 0.0 <= t
    ensures env.sqrt(q) < t <==> q < t * t
    ensures env.sqrt(q) <= t <==> q <= t * t
  {
    var s := env.sqrt(q);
    assert 0.0 <= s && s * s == q;
    SquareMonotone(s, t);
  }
}

=== FILE: hit_test.dfy ===
/**
 * Screen-space hit tests of the canvas editor. The pointer position `q` is
 * in screen pixels; shapes are mapped to the screen through `env.toScreen`.
 *
 * The source compares `Math.sqrt(dx * dx + dy * dy)` against a pixel
 * tolerance; here the squared distance is compared against the squared
 * tolerance, which `Geometry.SqrtCompare` shows to be the same test.
 */
module HitTest {
  import opened Optional
  import opened Geometry
  import opened Shapes
  import opened Scan

  /** A marker is hit within this many pixels of its position. */
  const MarkerRadius: real := 21.0

  /** A line is hit within this many pixels of the segment. */
  const LineTolerance: real := 10.0

  // ---------------------------------------------------------------------
  // Lines: distance to the segment, with the projection clamped to it

  /** Where the projection of `q` falls along `a`..`b` (0 at `a`, 1 at `b`); -1 for a zero-length segment. */
  function SegmentParam(q: Point, a: Point, b: Point): real
  {
    var c := b.x - a.x;
    var d := b.y - a.y;
    var lenSq := c * c + d * d;
    if lenSq != 0.0 then ((q.x - a.x) * c + (q.y - a.y) * d) / lenSq else -1.0
  }

  /** The point of segment `a`..`b` nearest to `q`. */
  function ClosestOnSegment(q: Point, a: Point, b: Point): (p: Point)
    ensures OnSegment(p, a, b)
  {
    var t := SegmentParam(q, a, b);
    if t < 0.0 then a
    else if t > 1.0 then b
    else
      Between(t, a.x, b.x);
      Between(t, a.y, b.y);
      Collinear(t, b.x - a.x, b.y - a.y);
      Point(a.x + t * (b.x - a.x), a.y + t * (b.y - a.y))
  }

  /** `p` lies on the segment `a`..`b`: on its line, and within its bounding box. */
  predicate OnSegment(p: Point, a: Point, b: Point)
  {
    (p.x - a.x) * (b.y - a.y) == (p.y - a.y) * (b.x - a.x) &&
    Min(a.x, b.x) <= p.x <= Max(a.x, b.x) && Min(a.y, b.y) <= p.y <= Max(a.y, b.y)
  }

  /** Solver helper: a point a fraction `t` of the way from `u` to `w` lies between them. */
  lemma Between(t: real, u: real, w: real)
    requires 0.0 <= t <= 1.0
    ensures Min(u, w) <= u + t * (w - u) <= Max(u, w)
  {
    if u <= w {
      MulNonNegative(t, w - u);
      MulNonNegative(1.0 - t, w - u);
    } else {
      MulNonNegative(t, u - w);
      MulNonNegative(1.0 - t, u - w);
    }
  }

  /** Solver helper: both offsets of a point on the line are the same multiple of the direction. */
  lemma Collinear(t: real, c: real, d: real)
    ensures (t * c) * d == (t * d) * c
  {
  }

  /** Solver helper. */
  lemma MulNonNegative(a: real, b: real)
    requires 0.0 <= a && 0.0 <= b
    ensures 0.0 <= a * b
  {
    if a > 0.0 && b > 0.0 {
      MulPositive(a, b);
    }
  }

  predicate NearLine(q: Point, a: Point, b: Point)
  {
    SqDist(q, ClosestOnSegment(q, a, b)) < LineTolerance * LineTolerance
  }

  /** Solver helper for real arithmetic. */
  lemma DivSelf(v: real)
    requires v != 0.0
    ensures v / v == 1.0
  {
  }

  /** Clicking exactly on either endpoint hits the line. */
  lemma LineEndpointsHit(a: Point, b: Point)
    ensures NearLine(a, a, b)
    ensures NearLine(b, a, b)
  {
    var c := b.x - a.x;
    var d := b.y - a.y;
    var lenSq := c * c + d * d;
    assert SegmentParam(a, a, b) == 0.0 || SegmentParam(a, a, b) == -1.0;
    if lenSq != 0.0 {
      assert (b.x - a.x) * c + (b.y - a.y) * d == lenSq;
      DivSelf(lenSq);
      assert SegmentParam(b, a, b) == 1.0;
    } else {
      assert SqDist(b, a) == lenSq;
    }
  }

  /** The line test only depends on where the pointer is relative to the segment. */
  lemma NearLineShift(q: Point, a: Point, b: Point, dx: real, dy: real)
    ensures NearLine(Shift(q, dx, dy), Shift(a, dx, dy), Shift(b, dx, dy)) == NearLine(q, a, b)
  {
    var q', a', b' := Shift(q, dx, dy), Shift(a, dx, dy), Shift(b, dx, dy);
    assert b'.x - a'.x == b.x - a.x && b'.y - a'.y == b.y - a.y;
    assert q'.x - a'.x == q.x - a.x && q'.y - a'.y == q.y - a.y;
    assert SegmentParam(q', a', b') == SegmentParam(q, a, b);
    assert ClosestOnSegment(q', a', b') == Shift(ClosestOnSegment(q, a, b), dx, dy);
    SqDistShift(q, ClosestOnSegment(q, a, b), dx, dy);
  }

  // ---------------------------------------------------------------------
  // Rects and squares: an inclusive box between two screen corners

  predicate InBox(q: Point, s: Point, e: Point)
  {
    Min(s.x, e.x) <= q.x <= Max(s.x, e.x) && Min(s.y, e.y) <= q.y <= Max(s.y, e.y)
  }

  /** The box test is inclusive, and does not care which corner comes first. */
  lemma InBoxProperties(q: Point, s: Point, e: Point)
    ensures InBox(s, s, e) && InBox(e, s, e)
    ensures InBox(Point(s.x, e.y), s, e) && InBox(Point(e.x, s.y), s, e)
    ensures InBox(q, s, e) == InBox(q, e, s)
    ensures InBox(q, s, e) <==>
      (s.x <= q.x <= e.x || e.x <= q.x <= s.x) && (s.y <= q.y <= e.y || e.y <= q.y <= s.y)
  {
  }

  // ---------------------------------------------------------------------
  // Ellipses

  /** Solver helper for real arithmetic. */
  lemma NonZeroSquare(v: real)
    requires v != 0.0
    ensures v * v > 0.0
  {
    if v < 0.0 {
      assert (-v) * (-v) == v * v;
      MulPositive(-v, -v);
    } else {
      MulPositive(v, v);
    }
  }

  /**
   * Inside the ellipse centred at `c` with screen radii `rx` and `ry`. A zero
   * radius divides by zero in the source, which yields a non-number or an
   * infinity and so never passes the `<= 1` test.
   */
  predicate InEllipse(q: Point, c: Point, rx: real, ry: real)
  {
    rx != 0.0 && ry != 0.0 && EllipseSum(q.x - c.x, q.y - c.y, rx, ry) <= 1.0
  }

  /** `dx * dx / (rx * rx) + dy * dy / (ry * ry)`, for offsets from the centre. */
  function EllipseSum(dx: real, dy: real, rx: real, ry: real): real
    requires rx != 0.0 && ry != 0.0
  {
    NonZeroSquare(rx);
    NonZeroSquare(ry);
    dx * dx / (rx * rx) + dy * dy / (ry * ry)
  }

  /** The centre of an ellipse with non-zero radii is inside it. */
  lemma EllipseCentreInside(c: Point, rx: real, ry: real)
    ensures rx != 0.0 && ry != 0.0 ==> InEllipse(c, c, rx, ry)
  {
    if rx != 0.0 && ry != 0.0 {
      NonZeroSquare(rx);
      NonZeroSquare(ry);
      assert c.x - c.x == 0.0 && c.y - c.y == 0.0;
      assert EllipseSum(0.0, 0.0, rx, ry) == 0.0;
    }
  }

  // ---------------------------------------------------------------------
  // Polygons and freehand shapes: even-odd ray casting

  /** The index of the vertex before `i`, wrapping from the first to the last. */
  function Prev(n: nat, i: nat): (j: nat)
    requires i < n
    ensures j < n
  {
    if i == 0 then n - 1 else i - 1
  }

  /** The edge from `a` to `b` crosses the horizontal ray going right from `q`. */
  predicate Crosses(q: Point, a: Point, b: Point)
  {
    (a.y > q.y) != (b.y > q.y) && q.x < (b.x - a.x) * (q.y - a.y) / (b.y - a.y) + a.x
  }

  /** How many of the first `n` edges (vertex `i` back to vertex `i - 1`) cross the ray. */
  function Crossings(ps: seq<Point>, q: Point, n: nat): nat
    requires n <= |ps|
  {
    if n == 0 then 0
    else Crossings(ps, q, n - 1) + (if Crosses(q, ps[n - 1], ps[Prev(|ps|, n - 1)]) then 1 else 0)
  }

  /** Even-odd rule: inside when the ray crosses the outline an odd number of times. */
  predicate InPolygon(ps: seq<Point>, q: Point)
  {
    Crossings(ps, q, |ps|) % 2 == 1
  }

  /** The source's loop: one pass over the edges, flipping `inside` at every crossing. */
  method RayCast(ps: seq<Point>, q: Point) returns (inside: bool)
    ensures inside <==> InPolygon(ps, q)
  {
    inside := false;
    if |ps| == 0 {
      return;
    }
    var i := 0;
    var j := |ps| - 1;
    while i < |ps|
      invariant 0 <= i <= |ps|
      invariant i < |ps| ==> j == Prev(|ps|, i)
      invariant inside <==> Crossings(ps, q, i) % 2 == 1
    {
      assert Crossings(ps, q, i + 1) == Crossings(ps, q, i) + (if Crosses(q, ps[i], ps[j]) then 1 else 0);
      if Crosses(q, ps[i], ps[j]) {
        inside := !inside;
      }
      j := i;
      i := i + 1;
    }
  }

  /** A point above or below every vertex is outside: no edge reaches its height. */
  lemma {:induction false} NoCrossingsOffToOneSide(ps: seq<Point>, q: Point, n: nat)
    requires n <= |ps|
    requires (forall k :: 0 <= k < |ps| ==> ps[k].y > q.y) || (forall k :: 0 <= k < |ps| ==> ps[k].y <= q.y)
    ensures Crossings(ps, q, n) == 0
  {
    if n > 0 {
      NoCrossingsOffToOneSide(ps, q, n - 1);
    }
  }

  /** Solver helper for real arithmetic. */
  lemma DivSub(a: real, b: real, u: real)
    requires u != 0.0
    ensures a / u - b / u == (a - b) / u
  {
  }

  /** Solver helper for real arithmetic. */
  lemma MulDivCancel(w: real, u: real)
    requires u != 0.0
    ensures (w * u) / u == w
  {
  }

  /** Solver helper for real arithmetic. */
  lemma NegBoth(a: real, b: real, u: real)
    requires u != 0.0
    ensures ((-a) * b) / (-u) == (a * b) / u
  {
  }

  /** The crossing abscissa of an edge is the same computed from either end. */
  lemma EdgeAbscissaSymmetric(x1: real, y1: real, x2: real, y2: real, y0: real)
    requires y1 != y2
    ensures (x2 - x1) * (y0 - y1) / (y2 - y1) + x1 == (x1 - x2) * (y0 - y2) / (y1 - y2) + x2
  {
    var u := y2 - y1;
    var w := x2 - x1;
    assert x1 - x2 == -w && y1 - y2 == -u;
    NegBoth(w, y0 - y2, u);
    assert (x1 - x2) * (y0 - y2) / (y1 - y2) == w * (y0 - y2) / u;
    DivSub(w * (y0 - y1), w * (y0 - y2), u);
    assert w * (y0 - y1) - w * (y0 - y2) == w * u;
    MulDivCancel(w, u);
    assert w * (y0 - y1) / u - w * (y0 - y2) / u == w;
  }

  /** An edge crosses the ray whichever way round it is walked. */
  lemma CrossesReversed(q: Point, a: Point, b: Point)
    ensures Crosses(q, a, b) == Crosses(q, b, a)
  {
    if (a.y > q.y) != (b.y > q.y) {
      EdgeAbscissaSymmetric(a.x, a.y, b.x, b.y, q.y);
    }
  }

  /**
   * An outline of at most two vertices encloses nothing: its one edge is
   * walked there and back, so every crossing is counted twice. A freehand
   * stroke of two samples can therefore never be clicked.
   */
  lemma ShortOutlineNeverHit(ps: seq<Point>, q: Point)
    requires |ps| <= 2
    ensures !InPolygon(ps, q)
  {
    if |ps| == 1 {
      assert Crossings(ps, q, 1) == 0;
    } else if |ps| == 2 {
      CrossesReversed(q, ps[0], ps[1]);
      assert Crossings(ps, q, 1) == if Crosses(q, ps[0], ps[1]) then 1 else 0;
      assert Crossings(ps, q, 2) == 2 * Crossings(ps, q, 1);
    }
  }

  lemma CrossesShift(q: Point, a: Point, b: Point, dx: real, dy: real)
    ensures Crosses(Shift(q, dx, dy), Shift(a, dx, dy), Shift(b, dx, dy)) == Crosses(q, a, b)
  {
    var q', a', b' := Shift(q, dx, dy), Shift(a, dx, dy), Shift(b, dx, dy);
    assert b'.x - a'.x == b.x - a.x && q'.y - a'.y == q.y - a.y && b'.y - a'.y == b.y - a.y;
  }

  lemma {:induction false} CrossingsShift(ps: seq<Point>, q: Point, dx: real, dy: real, n: nat)
    requires n <= |ps|
    ensures Crossings(ShiftAll(ps, dx, dy), Shift(q, dx, dy), n) == Crossings(ps, q, n)
  {
    if n > 0 {
      CrossingsShift(ps, q, dx, dy, n - 1);
      CrossesShift(q, ps[n - 1], ps[Prev(|ps|, n - 1)], dx, dy);
    }
  }

  /** Moving the outline and the pointer together does not change the verdict. */
  lemma InPolygonShift(ps: seq<Point>, q: Point, dx: real, dy: real)
    ensures InPolygon(ShiftAll(ps, dx, dy), Shift(q, dx, dy)) == InPolygon(ps, q)
  {
    CrossingsShift(ps, q, dx, dy, |ps|);
  }

  /** The centre of a 10 by 10 square is inside it, a point to its right is not. */
  lemma InPolygonExample()
    ensures var sq := [Point(0.0, 0.0), Point(10.0, 0.0), Point(10.0, 10.0), Point(0.0, 10.0)];
      InPolygon(sq, Point(5.0, 5.0)) && !InPolygon(sq, Point(15.0, 5.0))
  {
    var sq := [Point(0.0, 0.0), Point(10.0, 0.0), Point(10.0, 10.0), Point(0.0, 10.0)];
    assert Crossings(sq, Point(5.0, 5.0), 4) == 1;
    assert Crossings(sq, Point(15.0, 5.0), 4) == 0;
  }

  // ---------------------------------------------------------------------
  // Whole annotations

  function ToScreenAll(env: Env, ps: seq<Point>): (qs: seq<Point>)
    ensures |qs| == |ps|
    ensures forall k :: 0 <= k < |ps| ==> qs[k] == env.toScreen(ps[k])
  {
    seq(|ps|, k requires 0 <= k < |ps| => env.toScreen(ps[k]))
  }

  /** The screen radius of a circle, measured along the screen x axis as the source does. */
  function CircleScreenRadius(env: Env, cx: real, cy: real, r: real): real
  {
    Abs(env.toScreen(Point(cx + r, cy)).x - env.toScreen(Point(cx, cy)).x)
  }

  /**
   * Whether a click at screen point `q` lands on annotation `a`. Each kind
   * is hit at its anchor: a marker at its position, a circle at its centre,
   * an ellipse at its centre unless a screen radius is zero, a box at its
   * first corner; an outline of fewer than three points is never hit.
   * Rects and squares share the box test, polygons and freehand strokes the
   * ray cast.
   */
  function HitAnnotation(env: Env, q: Point, a: Annotation): (hit: bool)
    ensures a.params.MarkerParams? && q == env.toScreen(Point(a.params.x, a.params.y)) ==> hit
    ensures a.params.LineParams? ==>
      (q == env.toScreen(Point(a.params.x1, a.params.y1)) || q == env.toScreen(Point(a.params.x2, a.params.y2)) ==> hit)
    ensures a.params.CircleParams? && q == env.toScreen(Point(a.params.cx, a.params.cy)) ==> hit
    ensures a.params.EllipseParams? ==>
      var c := env.toScreen(Point(a.params.cx, a.params.cy));
      var rx := Abs(env.toScreen(Point(a.params.cx + a.params.rx, a.params.cy)).x - c.x);
      var ry := Abs(env.toScreen(Point(a.params.cx, a.params.cy + a.params.ry)).y - c.y);
      (rx == 0.0 || ry == 0.0 ==> !hit) && (rx != 0.0 && ry != 0.0 && q == c ==> hit)
    ensures (a.params.RectParams? || a.params.SquareParams?) ==>
      (q == env.toScreen(Point(a.params.x, a.params.y)) ==> hit)
    ensures (a.params.PolygonParams? || a.params.FreehandParams?) && |a.params.points| <= 2 ==> !hit
  {
    match a.params
    case MarkerParams(x, y) =>
      SqDist(q, env.toScreen(Point(x, y))) < MarkerRadius * MarkerRadius
    case LineParams(x1, y1, x2, y2) =>
      LineEndpointsHit(env.toScreen(Point(x1, y1)), env.toScreen(Point(x2, y2)));
      NearLine(q, env.toScreen(Point(x1, y1)), env.toScreen(Point(x2, y2)))
    case CircleParams(cx, cy, r) =>
      var c := env.toScreen(Point(cx, cy));
      var radius := Abs(env.toScreen(Point(cx + r, cy)).x - c.x);
      SqDist(q, c) <= radius * radius
    case EllipseParams(cx, cy, rx, ry) =>
      var c := env.toScreen(Point(cx, cy));
      EllipseCentreInside(c, Abs(env.toScreen(Point(cx + rx, cy)).x - c.x), Abs(env.toScreen(Point(cx, cy + ry)).y - c.y));
      InEllipse(q, c, Abs(env.toScreen(Point(cx + rx, cy)).x - c.x), Abs(env.toScreen(Point(cx, cy + ry)).y - c.y))
    case RectParams(x, y, w, h) =>
      InBox(q, env.toScreen(Point(x, y)), env.toScreen(Point(x + w, y + h)))
    case SquareParams(x, y, side) =>
      InBox(q, env.toScreen(Point(x, y)), env.toScreen(Point(x + side, y + side)))
    case PolygonParams(ps) =>
      if |ps| <= 2 then ShortOutlineNeverHit(ToScreenAll(env, ps), q); InPolygon(ToScreenAll(env, ps), q)
      else InPolygon(ToScreenAll(env, ps), q)
    case FreehandParams(ps) =>
      if |ps| <= 2 then ShortOutlineNeverHit(ToScreenAll(env, ps), q); InPolygon(ToScreenAll(env, ps), q)
      else InPolygon(ToScreenAll(env, ps), q)
  }

  /** A marker is hit exactly when `Math.sqrt` puts the click less than 21 pixels from it. */
  lemma MarkerHitWithin(env: Env, q: Point, a: Annotation)
    requires SaneSqrt(env)
    requires a.params.MarkerParams?
    ensures HitAnnotation(env, q, a) <==>
      env.sqrt(SqDist(q, env.toScreen(Point(a.params.x, a.params.y)))) < MarkerRadius
  {
    SqrtCompare(env, SqDist(q, env.toScreen(Point(a.params.x, a.params.y))), MarkerRadius);
  }

  /** A circle is hit exactly when `Math.sqrt` puts the click no farther from the centre than the screen radius. */
  lemma CircleHitWithin(env: Env, q: Point, a: Annotation)
    requires SaneSqrt(env)
    requires a.params.CircleParams?
    ensures var c := env.toScreen(Point(a.params.cx, a.params.cy));
      HitAnnotation(env, q, a) <==> env.sqrt(SqDist(q, c)) <= CircleScreenRadius(env, a.params.cx, a.params.cy, a.params.r)
  {
    var c := env.toScreen(Point(a.params.cx, a.params.cy));
    SqrtCompare(env, SqDist(q, c), CircleScreenRadius(env, a.params.cx, a.params.cy, a.params.r));
  }

  /** The ellipse test only depends on where the pointer is relative to the centre. */
  lemma InEllipseShift(q: Point, c: Point, rx: real, ry: real, dx: real, dy: real)
    ensures InEllipse(Shift(q, dx, dy), Shift(c, dx, dy), rx, ry) == InEllipse(q, c, rx, ry)
  {
    var q', c' := Shift(q, dx, dy), Shift(c, dx, dy);
    assert q'.x - c'.x == q.x - c.x && q'.y - c'.y == q.y - c.y;
  }

  /** Rects and squares share one box test: a square is the rect with equal sides. */
  lemma SquareHitsAsRect(env: Env, q: Point, a: Annotation, x: real, y: real, side: real)
    ensures HitAnnotation(env, q, a.(params := SquareParams(x, y, side))) ==
      HitAnnotation(env, q, a.(params := RectParams(x, y, side, side)))
  {
  }

  /** Polygons and freehand strokes share one ray cast over their points. */
  lemma FreehandHitsAsPolygon(env: Env, q: Point, a: Annotation, ps: seq<Point>)
    ensures HitAnnotation(env, q, a.(params := FreehandParams(ps))) ==
      HitAnnotation(env, q, a.(params := PolygonParams(ps)))
  {
  }

  /**
   * Clicking selects the annotation drawn last among those under the
   * pointer, since later annotations are painted on top.
   */
  function ShapeClick(env: Env, anns: seq<Annotation>, q: Point): (r: Option<nat>)
    ensures r.Some? ==> r.value < |anns| && HitAnnotation(env, q, anns[r.value])
    ensures r.Some? ==> forall j :: r.value < j < |anns| ==> !HitAnnotation(env, q, anns[j])
    ensures r.None? <==> forall j :: 0 <= j < |anns| ==> !HitAnnotation(env, q, anns[j])
  {
    LastHit(anns, a => HitAnnotation(env, q, a))
  }

  /** A newly added annotation under the pointer takes the click from everything below it. */
  lemma ShapeClickPrefersNewest(env: Env, anns: seq<Annotation>, a: Annotation, q: Point)
    ensures HitAnnotation(env, q, a) ==> ShapeClick(env, anns + [a], q) == Some(|anns|)
    ensures !HitAnnotation(env, q, a) ==> ShapeClick(env, anns + [a], q) == ShapeClick(env, anns, q)
  {
    LastHitAppend(anns, a, x => HitAnnotation(env, q, x));
  }
}

=== FILE: ids.dfy ===
/**
 * Annotation ids. Both editors give every committed annotation the id
 * `String(nextId++)`, the decimal text of a counter that starts at 1.
 * `IdOf` renders a counter value as that text and `DecimalValue` reads it
 * back; the round trip makes ids from distinct counter values distinct.
 */
module Ids {

  predicate IsDigit(c: char)
  {
    '0' <= c <= '9'
  }

  function DigitChar(d: nat): (c: char)
    requires d < 10
    ensures IsDigit(c)
  {
    (48 + d) as char
  }

  function DigitValue(c: char): nat
    requires IsDigit(c)
  {
    c as int - 48
  }

  /** `String(n)` for a non-negative integer: its decimal digits, most significant first. */
  function IdOf(n: nat): (s: string)
    ensures |s| >= 1
    ensures forall i :: 0 <= i < |s| ==> IsDigit(s[i])
    ensures |s| == 1 <==> n < 10
    ensures n >= 10 ==> s[0] != '0'
  {
    if n < 10 then [DigitChar(n)] else IdOf(n / 10) + [DigitChar(n % 10)]
  }

  /** The value of a string of decimal digits (the empty string reads as 0). */
  function DecimalValue(s: string): nat
    requires forall i :: 0 <= i < |s| ==> IsDigit(s[i])
  {
    if |s| == 0 then 0 else DecimalValue(s[..|s| - 1]) * 10 + DigitValue(s[|s| - 1])
  }

  /** Reading an id back gives the counter value it was made from. */
  lemma {:induction false} DecimalRoundTrip(n: nat)
    ensures DecimalValue(IdOf(n)) == n
  {
    var s := IdOf(n);
    if n < 10 {
      assert s[..|s| - 1] == [];
    } else {
      assert s[..|s| - 1] == IdOf(n / 10);
      DecimalRoundTrip(n / 10);
    }
  }

  /** Distinct counter values give distinct ids. */
  lemma IdOfInjective(a: nat, b: nat)
    ensures IdOf(a) == IdOf(b) <==> a == b
  {
    if IdOf(a) == IdOf(b) {
      DecimalRoundTrip(a);
      DecimalRoundTrip(b);
    }
  }
}

=== FILE: optional.dfy ===
/** The nullable values of the editors (`T | null`) as an option type. */
module Optional {

  datatype Option<+T> = None | Some(value: T) {

    /** The wrapped value, or `default` when there is none. */
    function GetOr(default: T): T
    {
      match this
      case Some(v) => v
      case None => default
    }
  }
}

=== FILE: scan.dfy ===
/**
 * The top-most-first scan both pickers of the canvas editor use: walk a
 * list from its last element down and stop at the first one that is hit.
 */
module Scan {
  import opened Optional

  /** The highest index whose element satisfies `hit`, if any. */
  function LastHit<T>(xs: seq<T>, hit: T -> bool): (r: Option<nat>)
    ensures r.Some? ==> r.value < |xs| && hit(xs[r.value])
    ensures r.Some? ==> forall j :: r.value < j < |xs| ==> !hit(xs[j])
    ensures r.None? <==> forall j :: 0 <= j < |xs| ==> !hit(xs[j])
  {
    if |xs| == 0 then None
    else if hit(xs[|xs| - 1]) then Some(|xs| - 1)
    else LastHit(xs[..|xs| - 1], hit)
  }

  /** A hit appended at the end wins; a miss appended at the end changes nothing. */
  lemma LastHitAppend<T>(xs: seq<T>, x: T, hit: T -> bool)
    ensures LastHit(xs + [x], hit) == if hit(x) then Some(|xs|) else LastHit(xs, hit)
  {
    assert (xs + [x])[..|xs + [x]| - 1] == xs;
  }
}

=== FILE: shapes.dfy ===
/**
 * The annotation record and the eight shape kinds, with whole-shape
 * translation (the canvas editor's move mode).
 *
 * The source keeps a `type` tag next to an untagged `params` object; here
 * the two are one sum type, so a tag that disagrees with its parameters
 * cannot be written down.
 */
module Shapes {
  import opened Geometry

  datatype AnnotationType = Marker | Line | Circle | Ellipse | Rect | Square | Polygon | Freehand

  datatype Params =
    | MarkerParams(x: real, y: real)
    | LineParams(x1: real, y1: real, x2: real, y2: real)
    | CircleParams(cx: real, cy: real, r: real)
    | EllipseParams(cx: real, cy: real, rx: real, ry: real)
    | RectParams(x: real, y: real, width: real, height: real)
    | SquareParams(x: real, y: real, side: real)
    | PolygonParams(points: seq<Point>)
    | FreehandParams(points: seq<Point>)
  {
    function Kind(): AnnotationType
    {
      match this
      case MarkerParams(_, _) => Marker
      case LineParams(_, _, _, _) => Line
      case CircleParams(_, _, _) => Circle
      case EllipseParams(_, _, _, _) => Ellipse
      case RectParams(_, _, _, _) => Rect
      case SquareParams(_, _, _) => Square
      case PolygonParams(_) => Polygon
      case FreehandParams(_) => Freehand
    }
  }

  /** An annotation; an absent `readOnly` reads as `false`. */
  datatype Annotation = Annotation(id: string, color: string, info: string, params: Params, readOnly: bool)

  /**
   * The points that place a shape in the image: the marker position, both
   * line endpoints, the circle and ellipse centres, the rect and square
   * origin, and every polygon or freehand vertex.
   */
  function Anchors(p: Params): seq<Point>
  {
    match p
    case MarkerParams(x, y) => [Point(x, y)]
    case LineParams(x1, y1, x2, y2) => [Point(x1, y1), Point(x2, y2)]
    case CircleParams(cx, cy, _) => [Point(cx, cy)]
    case EllipseParams(cx, cy, _, _) => [Point(cx, cy)]
    case RectParams(x, y, _, _) => [Point(x, y)]
    case SquareParams(x, y, _) => [Point(x, y)]
    case PolygonParams(ps) => ps
    case FreehandParams(ps) => ps
  }

  /** The sizes of a shape: radii, width and height, side. */
  function Extents(p: Params): seq<real>
  {
    match p
    case CircleParams(_, _, r) => [r]
    case EllipseParams(_, _, rx, ry) => [rx, ry]
    case RectParams(_, _, w, h) => [w, h]
    case SquareParams(_, _, side) => [side]
    case _ => []
  }

  /** A shape is fixed by its kind, its anchors and its extents. */
  lemma ParamsDetermined(p: Params, q: Params)
    requires p.Kind() == q.Kind() && Anchors(p) == Anchors(q) && Extents(p) == Extents(q)
    ensures p == q
  {
    match p
    case MarkerParams(_, _) => assert Anchors(p)[0] == Anchors(q)[0];
    case LineParams(_, _, _, _) => assert Anchors(p)[0] == Anchors(q)[0] && Anchors(p)[1] == Anchors(q)[1];
    case CircleParams(_, _, _) => assert Anchors(p)[0] == Anchors(q)[0] && Extents(p)[0] == Extents(q)[0];
    case EllipseParams(_, _, _, _) =>
      assert Anchors(p)[0] == Anchors(q)[0] && Extents(p)[0] == Extents(q)[0] && Extents(p)[1] == Extents(q)[1];
    case RectParams(_, _, _, _) =>
      assert Anchors(p)[0] == Anchors(q)[0] && Extents(p)[0] == Extents(q)[0] && Extents(p)[1] == Extents(q)[1];
    case SquareParams(_, _, _) => assert Anchors(p)[0] == Anchors(q)[0] && Extents(p)[0] == Extents(q)[0];
    case PolygonParams(_) =>
    case FreehandParams(_) =>
  }

  /** Every point of `ps` moved by `(dx, dy)`. */
  function ShiftAll(ps: seq<Point>, dx: real, dy: real): (qs: seq<Point>)
    ensures |qs| == |ps|
    ensures forall i :: 0 <= i < |ps| ==> qs[i] == Shift(ps[i], dx, dy)
  {
    seq(|ps|, i requires 0 <= i < |ps| => Shift(ps[i], dx, dy))
  }

  /**
   * Whole-shape translation: every anchor moves by `(dx, dy)`; the kind, the
   * sizes and the number of vertices stay as they were.
   */
  function Translate(p: Params, dx: real, dy: real): (q: Params)
    ensures q.Kind() == p.Kind()
    ensures Extents(q) == Extents(p)
    ensures Anchors(q) == ShiftAll(Anchors(p), dx, dy)
  {
    match p
    case MarkerParams(x, y) => MarkerParams(x + dx, y + dy)
    case LineParams(x1, y1, x2, y2) => LineParams(x1 + dx, y1 + dy, x2 + dx, y2 + dy)
    case CircleParams(cx, cy, r) => CircleParams(cx + dx, cy + dy, r)
    case EllipseParams(cx, cy, rx, ry) => EllipseParams(cx + dx, cy + dy, rx, ry)
    case RectParams(x, y, w, h) => RectParams(x + dx, y + dy, w, h)
    case SquareParams(x, y, side) => SquareParams(x + dx, y + dy, side)
    case PolygonParams(ps) => PolygonParams(ShiftAll(ps, dx, dy))
    case FreehandParams(ps) => FreehandParams(ShiftAll(ps, dx, dy))
  }

  /** Moving by `(-dx, -dy)` after `(dx, dy)` restores the shape. */
  lemma TranslateInverse(p: Params, dx: real, dy: real)
    ensures Translate(Translate(p, dx, dy), -dx, -dy) == p
  {
    var q := Translate(Translate(p, dx, dy), -dx, -dy);
    assert Anchors(q) == Anchors(p);
    ParamsDetermined(q, p);
  }

  /** Translating by nothing changes nothing. */
  lemma TranslateZero(p: Params)
    ensures Translate(p, 0.0, 0.0) == p
  {
    ParamsDetermined(Translate(p, 0.0, 0.0), p);
  }

  /** Two moves add up to one move by the summed offset. */
  lemma TranslateCompose(p: Params, dx1: real, dy1: real, dx2: real, dy2: real)
    ensures Translate(Translate(p, dx1, dy1), dx2, dy2) == Translate(p, dx1 + dx2, dy1 + dy2)
  {
    var q := Translate(Translate(p, dx1, dy1), dx2, dy2);
    var t := Translate(p, dx1 + dx2, dy1 + dy2);
    assert Anchors(q) == Anchors(t);
    ParamsDetermined(q, t);
  }
}

=== FILE: store.dfy ===
/**
 * The annotation store (`useAnnotationStore`): the application-wide list of
 * annotations with an index-based selection, the drawing settings, and the
 * actions that edit them.
 */
module AnnotationStore {
  import opened Optional
  import opened Shapes
  import opened AnnotationList

  datatype Store = Store(
    annotations: seq<Annotation>,
    currentType: Option<AnnotationType>,
    currentColor: string,
    selectedIndex: Option<int>,
    isMultiMode: bool,
    squareSize: real)

  /** The store as created: empty, red, no selection, single-shot mode, 256-pixel squares. */
  function Initial(): (s: Store)
    ensures s.annotations == [] && s.selectedIndex.None? && s.currentType.None? && !s.isMultiMode
  {
    Store([], None, "#ff0000", None, false, 256.0)
  }

  /**
   * `selectedAnnotation`: the entry at the selected index; an index off
   * either end of the list selects nothing.
   */
  function SelectedAnnotation(s: Store): (r: Option<Annotation>)
    ensures r.Some? <==> s.selectedIndex.Some? && 0 <= s.selectedIndex.value < |s.annotations|
    ensures r.Some? ==> r.value == s.annotations[s.selectedIndex.value]
  {
    match s.selectedIndex
    case Some(i) => if 0 <= i < |s.annotations| then Some(s.annotations[i]) else None
    case None => None
  }

  /** `setAnnotations`: replaces the list; unlike the editors it keeps the selected index. */
  function SetAnnotations(s: Store, l: seq<Annotation>): (r: Store)
    ensures r.annotations == l
    ensures r.selectedIndex == s.selectedIndex && r.currentType == s.currentType && r.currentColor == s.currentColor
    ensures r.isMultiMode == s.isMultiMode && r.squareSize == s.squareSize
  {
    s.(annotations := l)
  }

  /** `addAnnotation`: appends. */
  function Add(s: Store, a: Annotation): (r: Store)
    ensures r.annotations == AnnotationList.Add(s.annotations, a)
    ensures r.selectedIndex == s.selectedIndex && r.currentType == s.currentType
  {
    s.(annotations := s.annotations + [a])
  }

  /**
   * The fields a partial update carries. A field that is absent keeps the
   * annotation's value; the kind and its parameters travel together.
   */
  datatype Patch = Patch(
    id: Option<string>,
    color: Option<string>,
    info: Option<string>,
    params: Option<Params>,
    readOnly: Option<bool>)

  const EmptyPatch: Patch := Patch(None, None, None, None, None)

  /** `{ ...a, ...p }`: every field the patch carries wins. */
  function Merge(a: Annotation, p: Patch): (r: Annotation)
    ensures p.id.Some? ==> r.id == p.id.value
    ensures p.id.None? ==> r.id == a.id
    ensures r.color == (if p.color.Some? then p.color.value else a.color)
    ensures r.info == (if p.info.Some? then p.info.value else a.info)
    ensures r.params == (if p.params.Some? then p.params.value else a.params)
    ensures r.readOnly == (if p.readOnly.Some? then p.readOnly.value else a.readOnly)
  {
    Annotation(
      p.id.GetOr(a.id), p.color.GetOr(a.color), p.info.GetOr(a.info),
      p.params.GetOr(a.params), p.readOnly.GetOr(a.readOnly))
  }

  /** Applying a patch twice is applying it once. */
  lemma MergeIdempotent(a: Annotation, p: Patch)
    ensures Merge(Merge(a, p), p) == Merge(a, p)
  {
  }

  /**
   * `updateAnnotation`: the first entry with id `id` is merged with the
   * patch; the length and every other entry stay; an unknown id changes
   * nothing.
   */
  function Update(s: Store, id: string, p: Patch): (r: Store)
    ensures |r.annotations| == |s.annotations|
    ensures r.selectedIndex == s.selectedIndex && r.currentType == s.currentType
    ensures FindIndex(s.annotations, id).None? ==> r == s
    ensures FindIndex(s.annotations, id).Some? ==>
      var i := FindIndex(s.annotations, id).value;
      r.annotations[i] == Merge(s.annotations[i], p) &&
      forall j :: 0 <= j < |s.annotations| && j != i ==> r.annotations[j] == s.annotations[j]
  {
    match FindIndex(s.annotations, id)
    case Some(i) => s.(annotations := s.annotations[i := Merge(s.annotations[i], p)])
    case None => s
  }

  /** An empty patch changes nothing. */
  lemma UpdateEmptyPatch(s: Store, id: string)
    ensures Update(s, id, EmptyPatch) == s
  {
    if FindIndex(s.annotations, id).Some? {
      var i := FindIndex(s.annotations, id).value;
      assert Merge(s.annotations[i], EmptyPatch) == s.annotations[i];
      assert Update(s, id, EmptyPatch).annotations == s.annotations;
    }
  }

  /**
   * A patch that keeps the id may be applied twice to the same effect: the
   * second lookup finds the entry the first one patched.
   */
  lemma UpdateIdempotent(s: Store, id: string, p: Patch)
    requires p.id.None? || p.id == Some(id)
    ensures Update(Update(s, id, p), id, p) == Update(s, id, p)
  {
    var r := Update(s, id, p);
    if FindIndex(s.annotations, id).Some? {
      var i := FindIndex(s.annotations, id).value;
      assert r.annotations[i].id == id;
      assert forall j :: 0 <= j < i ==> r.annotations[j].id != id by {
        forall j | 0 <= j < i
          ensures r.annotations[j].id != id
        {
          assert r.annotations[j] == s.annotations[j];
        }
      }
      FindIndexFirst(r.annotations, id, i);
      MergeIdempotent(s.annotations[i], p);
      assert Update(r, id, p).annotations == r.annotations;
    }
  }

  /**
   * `deleteAnnotation`: the first entry with id `id` is removed; the
   * selection is dropped if it was that entry and moves up by one if it
   * was after it; an unknown id changes nothing.
   */
  function Delete(s: Store, id: string): (r: Store)
    ensures r.annotations == Remove(s.annotations, id)
    ensures FindIndex(s.annotations, id).None? ==> r == s
    ensures FindIndex(s.annotations, id).Some? ==>
      var i := FindIndex(s.annotations, id).value;
      r.selectedIndex ==
        (match s.selectedIndex
         case None => None
         case Some(k) => if k == i then None else if k > i then Some(k - 1) else Some(k))
    ensures r.currentType == s.currentType && r.isMultiMode == s.isMultiMode
  {
    match FindIndex(s.annotations, id)
    case None => s
    case Some(i) =>
      var sel :=
        if s.selectedIndex == Some(i) then None
        else if s.selectedIndex.Some? && s.selectedIndex.value > i then Some(s.selectedIndex.value - 1)
        else s.selectedIndex;
      s.(annotations := Remove(s.annotations, id), selectedIndex := sel)
  }

  /**
   * Deleting keeps the selected annotation selected, unless it is the one
   * deleted, in which case nothing is selected.
   */
  lemma DeleteKeepsSelected(s: Store, id: string)
    ensures var i := FindIndex(s.annotations, id);
      SelectedAnnotation(Delete(s, id)) ==
        (if i.Some? && s.selectedIndex == Some(i.value) then None else SelectedAnnotation(s))
  {
    var l := s.annotations;
    var r := Delete(s, id);
    if FindIndex(l, id).Some? && s.selectedIndex.Some? {
      var i := FindIndex(l, id).value;
      var k := s.selectedIndex.value;
      if k > i {
        assert r.selectedIndex == Some(k - 1);
        if k < |l| {
          assert r.annotations[k - 1] == l[k];
        }
      } else if k < i {
        assert r.selectedIndex == Some(k);
        if 0 <= k {
          assert r.annotations[k] == l[k];
        }
      }
    }
  }

  /** Deleting the entry just added under a fresh id restores the store. */
  lemma DeleteAfterAdd(s: Store, a: Annotation)
    requires !HasId(s.annotations, a.id)
    requires s.selectedIndex.None? || s.selectedIndex.value < |s.annotations|
    ensures Delete(Add(s, a), a.id) == s
  {
    RemoveAfterAdd(s.annotations, a);
    assert FindIndex(Add(s, a).annotations, a.id) == Some(|s.annotations|);
  }

  /** An annotation added under a fresh id is what the lookup by that id returns. */
  lemma GetAfterAdd(s: Store, a: Annotation)
    requires !HasId(s.annotations, a.id)
    ensures GetAnnotationById(Add(s, a), a.id) == Some(a)
  {
    var l := Add(s, a).annotations;
    assert l[|s.annotations|] == a;
    assert forall j :: 0 <= j < |s.annotations| ==> l[j].id != a.id by {
      forall j | 0 <= j < |s.annotations|
        ensures l[j].id != a.id
      {
        assert l[j] == s.annotations[j];
      }
    }
    FindIndexFirst(l, a.id, |s.annotations|);
  }

  /** `clearAnnotations`: empties the list and drops both the selection and the chosen kind. */
  function Clear(s: Store): (r: Store)
    ensures r.annotations == [] && r.selectedIndex.None? && r.currentType.None?
    ensures SelectedAnnotation(r).None?
    ensures r.currentColor == s.currentColor && r.isMultiMode == s.isMultiMode && r.squareSize == s.squareSize
  {
    s.(annotations := [], selectedIndex := None, currentType := None)
  }

  /** `toggleMultiMode`: flips the mode and returns the new value. */
  function ToggleMultiMode(s: Store): (r: (Store, bool))
    ensures r.0.isMultiMode != s.isMultiMode && r.1 == r.0.isMultiMode
    ensures r.0 == s.(isMultiMode := r.1)
  {
    var s' := s.(isMultiMode := !s.isMultiMode);
    (s', s'.isMultiMode)
  }

  /** Toggling twice restores the store. */
  lemma ToggleTwice(s: Store)
    ensures ToggleMultiMode(ToggleMultiMode(s).0).0 == s
  {
  }

  /** `getAnnotationById`: the first entry with that id. */
  function GetAnnotationById(s: Store, id: string): (r: Option<Annotation>)
    ensures r.Some? <==> HasId(s.annotations, id)
    ensures r.Some? ==> r.value.id == id && r.value in s.annotations
    ensures r.Some? ==> r.value == s.annotations[FindIndex(s.annotations, id).value]
    ensures r.Some? ==> forall j :: 0 <= j < |s.annotations| && s.annotations[j].id == id ==>
      FindIndex(s.annotations, id).value <= j
  {
    Find(s.annotations, id)
  }

  /** `clearDrawState`: the chosen kind is dropped unless several shapes may be drawn in a row. */
  function ClearDrawState(s: Store): (r: Store)
    ensures r.currentType == (if s.isMultiMode then s.currentType else None)
    ensures r.annotations == s.annotations && r.selectedIndex == s.selectedIndex && r.isMultiMode == s.isMultiMode
  {
    if !s.isMultiMode then s.(currentType := None) else s
  }
}

=== FILE: svg_editor.dfy ===
/**
 * The SVG overlay editor (`AnnotationEditor`): the shared drawing machine
 * plus the eight per-kind `drawingX` flags this editor keeps, the
 * shape-click selection through the element under the pointer, and the
 * list operations.
 *
 * The DOM lookup `closest('[data-id]')` is not modelled: the mouse-down
 * handler receives the `data-id` of the element under the pointer, if any.
 */
module SvgEditor {
  import opened Optional
  import opened Geometry
  import opened Shapes
  import opened AnnotationList
  import Drawing

  /** The flags `drawingMarker` … `drawingFreehand`, one per kind. */
  datatype Flags = Flags(
    marker: bool, line: bool, circle: bool, ellipse: bool,
    rect: bool, square: bool, polygon: bool, freehand: bool)

  const NoFlags: Flags := Flags(false, false, false, false, false, false, false, false)

  function FlagOf(f: Flags, t: AnnotationType): bool
  {
    match t
    case Marker => f.marker
    case Line => f.line
    case Circle => f.circle
    case Ellipse => f.ellipse
    case Rect => f.rect
    case Square => f.square
    case Polygon => f.polygon
    case Freehand => f.freehand
  }

  datatype Svg = Svg(editor: Editor, draw: Drawing.DrawState, flags: Flags)

  /** A freshly constructed editor: nothing listed, nothing chosen, every flag down. */
  function Initial(allowMulti: bool): (v: Svg)
    ensures v.editor.annotations == [] && v.editor.selectedId.None?
    ensures v.draw.currentType.None? && v.draw.nextId == 1
    ensures forall t :: !FlagOf(v.flags, t)
  {
    Svg(Editor([], None), Drawing.Initial(allowMulti), NoFlags)
  }

  /**
   * `setDrawType`: every flag is lowered, then the chosen kind's flag is
   * raised; the drawing state is reset as the shared machine prescribes.
   */
  function SetDrawType(v: Svg, t: AnnotationType, size: real): (r: Svg)
    ensures r.editor == v.editor
    ensures r.draw == Drawing.SetDrawType(v.draw, t, size)
    ensures forall u :: FlagOf(r.flags, u) <==> u == t
  {
    var f := Flags(t == Marker, t == Line, t == Circle, t == Ellipse,
                   t == Rect, t == Square, t == Polygon, t == Freehand);
    Svg(v.editor, Drawing.SetDrawType(v.draw, t, size), f)
  }

  /** `cancelDraw`: resets the drawing state but leaves the flags as they were. */
  function CancelDraw(v: Svg): (r: Svg)
    ensures r.editor == v.editor && r.flags == v.flags
    ensures r.draw.currentType.None? && !r.draw.drawing && Drawing.AllIdle(r.draw.buf)
    ensures r.draw.nextId == v.draw.nextId
  {
    v.(draw := Drawing.CancelDraw(v.draw))
  }

  /**
   * A click with no kind chosen: the `data-id` found under the pointer is
   * selected when it is non-empty and names a listed annotation; otherwise
   * nothing happens.
   */
  function ShapeClick(v: Svg, target: Option<string>): (r: Svg)
    ensures r.draw == v.draw && r.flags == v.flags
    ensures r.editor.annotations == v.editor.annotations
    ensures r.editor.selectedId ==
      (if target.Some? && target.value != "" && HasId(v.editor.annotations, target.value)
       then target else v.editor.selectedId)
  {
    if target.Some? && target.value != "" then v.(editor := Select(v.editor, target.value)) else v
  }

  /** Run one drawing step and append what it committed. */
  function Apply(v: Svg, st: Drawing.Step): (r: Svg)
    ensures r.flags == v.flags && r.draw == st.state
    ensures r.editor == AddCommitted(v.editor, st.committed)
  {
    v.(draw := st.state, editor := AddCommitted(v.editor, st.committed))
  }

  /**
   * Mouse-down at image point `pt` over the element tagged `target`: with
   * no kind chosen it is a shape click, otherwise a press of the drawing
   * machine, whose commit is appended to the list.
   */
  function MouseDown(v: Svg, env: Env, pt: Point, target: Option<string>): (r: Svg)
    ensures v.draw.currentType.None? ==> r == ShapeClick(v, target)
    ensures v.draw.currentType.Some? ==>
      var st := Drawing.Press(v.draw, env, pt);
      r.draw == st.state && r.flags == v.flags && r.editor == AddCommitted(v.editor, st.committed)
  {
    if v.draw.currentType.None? then ShapeClick(v, target)
    else Apply(v, Drawing.Press(v.draw, env, pt))
  }

  /** Mouse-move: ignored with no kind chosen, otherwise a move of the drawing machine. */
  function MouseMove(v: Svg, env: Env, pt: Point): (r: Svg)
    ensures r.editor == v.editor && r.flags == v.flags
    ensures v.draw.currentType.None? ==> r == v
    ensures v.draw.currentType.Some? ==> r.draw == Drawing.Move(v.draw, env, pt)
  {
    if v.draw.currentType.None? then v else v.(draw := Drawing.Move(v.draw, env, pt))
  }

  /** Mouse-up: ignored with no kind chosen, otherwise a release, whose commit is appended. */
  function MouseUp(v: Svg, pt: Point): (r: Svg)
    ensures v.draw.currentType.None? ==> r == v
    ensures v.draw.currentType.Some? ==>
      var st := Drawing.Release(v.draw, pt);
      r.draw == st.state && r.flags == v.flags && r.editor == AddCommitted(v.editor, st.committed)
  {
    if v.draw.currentType.None? then v else Apply(v, Drawing.Release(v.draw, pt))
  }

  /** `deleteAnnotation`, leaving drawing untouched. */
  function DeleteAnnotation(v: Svg, id: string): (r: Svg)
    ensures r.draw == v.draw && r.flags == v.flags
    ensures r.editor == AnnotationList.DeleteAnnotation(v.editor, id)
  {
    v.(editor := AnnotationList.DeleteAnnotation(v.editor, id))
  }

  // ---------------------------------------------------------------------
  // Event sequences

  datatype Event =
    | Down(pt: Point, target: Option<string>)
    | Moved(pt: Point)
    | Up(pt: Point)
    | ChooseType(t: AnnotationType, size: real)
    | Cancel
    | Delete(id: string)
    | Load(annotations: seq<Annotation>)

  /**
   * One event. Only choosing a kind moves the flags; moves, kind choices and
   * cancels leave the list and selection alone; presses and releases only
   * ever append to the list.
   */
  function Handle(v: Svg, env: Env, ev: Event): (r: Svg)
    ensures !ev.ChooseType? ==> r.flags == v.flags
    ensures ev.Moved? || ev.ChooseType? || ev.Cancel? ==> r.editor == v.editor
    ensures ev.Down? || ev.Up? ==>
      v.editor.annotations <= r.editor.annotations && |r.editor.annotations| <= |v.editor.annotations| + 1
  {
    match ev
    case Down(pt, target) => MouseDown(v, env, pt, target)
    case Moved(pt) => MouseMove(v, env, pt)
    case Up(pt) => MouseUp(v, pt)
    case ChooseType(t, size) => SetDrawType(v, t, size)
    case Cancel => CancelDraw(v)
    case Delete(id) => DeleteAnnotation(v, id)
    case Load(l) => v.(editor := SetAnnotations(v.editor, l))
  }

  /** A run of events. Without a kind choice the flags stay; without deletes or loads the list only grows. */
  function Replay(v: Svg, env: Env, evs: seq<Event>): (r: Svg)
    ensures (forall k :: 0 <= k < |evs| ==> !evs[k].ChooseType?) ==> r.flags == v.flags
    ensures (forall k :: 0 <= k < |evs| ==> !evs[k].Delete? && !evs[k].Load?) ==>
      v.editor.annotations <= r.editor.annotations
    decreases |evs|
  {
    if |evs| == 0 then v else Replay(Handle(v, env, evs[0]), env, evs[1..])
  }

  /** While a kind is chosen, its flag is the only one raised. */
  predicate FlagsAgree(v: Svg)
  {
    v.draw.currentType.Some? ==> forall u :: FlagOf(v.flags, u) <==> v.draw.currentType == Some(u)
  }

  /**
   * The editor's standing promises: the flags agree with the chosen kind,
   * the selection names a listed annotation, and drawn sizes are absolute.
   */
  predicate Invariant(v: Svg)
  {
    FlagsAgree(v) && SelectionValid(v.editor) && Drawing.Valid(v.draw)
  }

  lemma InitialInvariant(allowMulti: bool)
    ensures Invariant(Initial(allowMulti))
  {
    Drawing.AllIdleIsEmpty(Initial(allowMulti).draw.buf);
  }

  /** Every event keeps the invariant. */
  lemma HandleKeepsInvariant(v: Svg, env: Env, ev: Event)
    requires Invariant(v)
    ensures Invariant(Handle(v, env, ev))
  {
    match ev
    case Down(pt, target) =>
      if v.draw.currentType.Some? {
        AddCommittedKeepsSelectionValid(v.editor, Drawing.Press(v.draw, env, pt).committed);
      }
    case Moved(pt) =>
    case Up(pt) =>
      if v.draw.currentType.Some? {
        AddCommittedKeepsSelectionValid(v.editor, Drawing.Release(v.draw, pt).committed);
      }
    case ChooseType(t, size) =>
    case Cancel =>
    case Delete(id) =>
      DeleteKeepsSelectionValid(v.editor, id);
    case Load(l) =>
  }

  /** Any sequence of events keeps the invariant. */
  lemma {:induction false} ReplayKeepsInvariant(v: Svg, env: Env, evs: seq<Event>)
    requires Invariant(v)
    ensures Invariant(Replay(v, env, evs))
    decreases |evs|
  {
    if |evs| > 0 {
      HandleKeepsInvariant(v, env, evs[0]);
      ReplayKeepsInvariant(Handle(v, env, evs[0]), env, evs[1..]);
    }
  }

  /** Only choosing a kind moves the flags; cancelling and committing leave them raised. */
  lemma FlagsOutliveCancel(v: Svg, t: AnnotationType, size: real)
    ensures var r := CancelDraw(SetDrawType(v, t, size));
      r.draw.currentType.None? && FlagOf(r.flags, t) && forall u :: u != t ==> !FlagOf(r.flags, u)
  {
  }
}
